=== FILE: README.md ===
# Hush companion state engine, modelled in Dafny

This project models the core of the Hush wellbeing app (`main.py`). That core is
the virtual companion "Jerry":

- three needs (clarity, insight, calm) that decay linearly over time;
- a feeding time per need;
- an experience / level progression.

Around the companion it also models the small deterministic rules that drive it:

- the animation, tick interval, frame, evolution stage, title, aura and tint
  chosen from the companion's state;
- the rewards that completed exercises dispatch (check-in, CBT, DBT);
- the bounded chat history, the keyword fallback responder and `ACTION:` routing;
- the newest-first entries and conversation logs;
- the step logic of the check-in and therapy flows, including checklist ticking.

Everything is a pure function over immutable values. The wall clock is an
injected `now: real` (seconds), and need values are `real`s. The state file and
the logs are values, not files.

Modules, one per component of `main.py`:

- `Companion` (`companion.dfy`): `JerryCompanion`, meaning decay, `update_needs`, `feed`, `add_xp` and `level_up`.
- `Persistence` (`persistence.dfy`): `load_state`/`save_state` as a merge of a document into the current state.
- `Presentation` (`presentation.dfy`): the selection arithmetic of `JerryAnimator` and `JerryScreen.check_for_evolution`.
- `Chat` (`chat.dfy`): `JerryAI`'s history, fallback responder and `end_session`, and `JerryScreen.handle_ai_response`.
- `Logs` (`logs.dfy`): `EntriesLog` and `ConversationLog`.
- `Flows` (`flows.dfy`): `CheckinScreen` and `TherapyScreenBase` with its CBT and DBT flows.
- `Sequences` and `Wrappers`: an index/remove helper and an `Option` type.

Behaviour of `main.py` worth noting, each stated by a lemma or a contract:

- The decayed value is floored at 0 but not capped at 100 (main.py:215). A feeding time later than `now` gives more than 100 (`DecayLaw`).
- `add_xp` checks for a level-up once, not in a loop (main.py:228). `AddXpLoop` is the loop form as a reference definition. `SingleCheckMatchesLoop` proves the two agree from xp below the threshold for an award no larger than the threshold. `AwardKeepsSettled` shows such an award leaves xp below the threshold again, so `RunMatchesLoop` extends the agreement to any run of awards between 0 and 100 from such a state, which covers the app's awards of 10 and 20. A state file may hold any xp, and from xp at or above the threshold the two can differ; `LargeAwardLevelsOnce` shows where they differ.
- `feed` on an unknown name is silently ignored (main.py:221). It still brings every need up to date first (`Feed`).
- A CBT flow gives 20 xp, as does a DBT flow (main.py:1120-1125).
- When several needs share the minimum value, the first one in dictionary order wins (main.py:551). For the default order that is clarity, then insight, then calm.

## Model

| member | source | states |
|---|---|---|
| Companion.Initial | main.py:171-178 | a new companion has every need at 100, every need fed at `now`, xp 0, level 1 and threshold 100 |
| Companion.DecayLaw | main.py:214-215 | a need is 100 at its feeding instant, 0 from one whole decay period on, `100·(1 − elapsed/period)` in between, never above 100 for a past feeding, above 100 for a feeding after `now` |
| Companion.DecayMonotone | main.py:215 | a later reading never shows a fuller need |
| Companion.UpdateNeeds | main.py:210-217 | every need with a feeding time gets its decayed value at the rate for its name (24 h for unknown names); other needs keep their value; feeding times, xp, level and threshold are unchanged |
| Companion.UpdateNeedsIdempotent | main.py:210-217 | two updates at the same instant give the same state as one |
| Companion.UpdateNeedsBounds | main.py:215 | after an update a fed need is non-negative, and at most 100 unless it was fed after `now` |
| Companion.Feed | main.py:219-224 | a known need becomes its decayed value plus the amount, capped at 100, and its clock restarts at `now` whatever the amount; an unknown name leaves every feeding time and the progression unchanged and is reported as not saved |
| Companion.FeedLaw | main.py:219-224 | feeding a need never takes it above 100, adds the whole amount when that fits, never lowers it for a non-negative amount, resets only its own clock |
| Companion.FeedFull | main.py:219-224 | `feed(n)` with the default amount 100 refills a known need with a feeding time to exactly 100 and restarts only its clock; every other need with a feeding time shows its decayed value |
| Companion.NextThreshold | main.py:235 | `int(t * 1.5)`: for non-negative `t`, `2r ≤ 3t < 2r + 2` (floor of 3t/2), and the mirror bounds for negative `t` |
| Companion.NextThresholdGrows | main.py:235 | the next threshold is never below a non-negative threshold, and grows strictly from 2 on |
| Companion.LevelUp | main.py:232-235 | a level-up raises the level by one, consumes exactly one threshold's worth of xp, and sets the grown threshold |
| Companion.AddXp | main.py:226-235 | the award is added; if xp then reaches the threshold, exactly one level-up happens, otherwise only xp changes; the level rises by at most one per call |
| Companion.AddXpKeepsProgression | main.py:226-235 | an award of any sign keeps level ≥ 1 and threshold ≥ 100, and never lowers the level or the threshold |
| Companion.AddXpAllKeepsProgression | main.py:226-235 | from a valid progression, any run of awards keeps level ≥ 1 and threshold ≥ 100, never lowers them, and gains at most one level per award |
| Companion.SingleCheckMatchesLoop | main.py:228-229 | with 0 ≤ xp < threshold and an award no larger than the threshold, the single check gives the same state as levelling up in a loop |
| Companion.AwardKeepsSettled | main.py:226-235 | from xp below the threshold, an award between 0 and the threshold leaves xp non-negative and below the threshold again, which never shrinks |
| Companion.RunMatchesLoop | main.py:226-235 | from xp below a threshold of at least 100, a run of awards each between 0 and 100 ends in the same state under the single check as under levelling up in a loop |
| Companion.LargeAwardLevelsOnce | main.py:228-229 | 90 xp at level 1 plus an award of 250 gives level 2 with 240 xp against threshold 150 (xp left above the threshold), where a loop would give level 3, 90 xp, threshold 225 |
| Persistence.Save | main.py:197-206 | the saved document holds exactly the five fields of the state |
| Persistence.Load | main.py:181-195 | each key in the document replaces its field and each missing key keeps the current value, with no write-back; a missing or unreadable file keeps the current state and writes it back |
| Persistence.Construct | main.py:171-192 | the constructed state takes each field from the document when it names it, and otherwise the default (needs 100 fed at `now`, xp 0, level 1, threshold 100); it is written back exactly when there is no readable document |
| Persistence.LoadSaveRoundTrip | main.py:181-206 | loading what was saved gives back the saved state, whatever the loader held before, and writes nothing |
| Persistence.SaveLoadRoundTrip | main.py:181-206 | saving what was loaded from a complete document reproduces that document |
| Persistence.LoadIdempotent | main.py:185-189 | loading the same document twice is loading it once |
| Persistence.ConstructWithoutFile | main.py:171-192 | without a readable state file the companion starts at level 1, xp 0, threshold 100, needs at 100 fed at `now`, and that state is written out |
| Persistence.PartialDocumentKeepsDefaults | main.py:185-189 | a document naming only the level keeps the constructor's needs, feeding times, xp and threshold |
| Presentation.MinIndex | main.py:551 | over a non-empty needs dictionary listed in its iteration order, `min(needs, key=needs.get)` picks a need no other need is below, and every need before it in iteration order is strictly larger |
| Presentation.AnimationKey | main.py:550-552 | there is no key exactly when there are no needs; `content` exactly when every need is at least 50; otherwise `low_m` for a minimal need `m` below 50, namely the first minimal one in iteration order |
| Presentation.IntervalFor | main.py:553 | the interval is 0.15 exactly for `low_calm` and 0.35 otherwise |
| Presentation.DefaultOrderSelection | main.py:550-553 | for needs with exactly the keys clarity, insight, calm in that order: each low key exactly when its need is below 50, strictly below the needs before it and no greater than those after; `content` exactly when all are ≥ 50; the fast interval exactly in the low-calm case |
| Presentation.SelectionExamples | main.py:550-552 | (80, 30, 90) selects `low_insight`; the tie (20, 20, 90) selects `low_clarity`; (50, 70, 60) is `content` |
| Presentation.NextFrame | main.py:563 | the next frame stays in `[0, count)`, advances by one inside the range, and wraps from the last frame to 0 |
| Presentation.FramesCycle | main.py:563 | after `k` ticks from an in-range frame `f`, the frame is `(f + k) mod count` |
| Presentation.EvolutionStage | main.py:735 | the stage `s` satisfies `10·s ≤ level < 10·s + 10` (floor division by 10) |
| Presentation.StageMonotone | main.py:735 | a higher level never gives a lower stage |
| Presentation.Title | main.py:742-749 | stage 1 is "Jerry the Listener", stage 2 "Calm Companion", stage 3 "Beacon of Insight", each exactly, and any other stage has no title |
| Presentation.TitleByLevel | main.py:738-749 | the title is "Jerry the Listener" exactly for levels 10-19, "Calm Companion" for 20-29, "Beacon of Insight" for 30-39, and empty otherwise |
| Presentation.Evolve | main.py:493-509 | evolving records the stage and runs an aura exactly from stage 2 on, with peak 0.4 from stage 3 and 0.2 before; frame, interval and both ticks are kept |
| Presentation.Stop | main.py:527-542 | stopping cancels the need-driven tick, the thinking tick and the aura, and keeps the stage, frame and last interval |
| Presentation.Start | main.py:514-525 | starting stops everything, then runs the need-driven tick at 0.35 |
| Presentation.ShowThinking | main.py:568-575 | the thinking animation starts from frame 0 and ticks every 0.5 s, with the need-driven tick and the aura cancelled |
| Presentation.AnimateThinking | main.py:577-584 | a thinking tick moves to the next of the two thinking frames, wrapping, and changes nothing else |
| Presentation.Animate | main.py:544-566 | a tick selects the key from the needs as `AnimationKey` states and records its interval, rescheduling the tick when the interval changed; it advances the frame for keys with a sprite and keeps it for others; on empty needs nothing changes |
| Presentation.AnimatorKeepsValid | main.py:493-584 | a new animator, and every operation on one (evolve, stop, start, thinking, both ticks, the evolution check), keeps the aura only from stage 2 on (peak 0.4 from stage 3, 0.2 before), the frame inside the two-frame animations, and the thinking tick at 0.5 s |
| Presentation.CheckForEvolution | main.py:724-751 | only a level above the last one seen evolves the animator to `level // 10`, shows that stage's title and records the level; otherwise nothing changes |
| Presentation.AuraByLevel | main.py:502-509 | after an evolution check the aura is on exactly from level 20, with peak 0.4 from level 30 and 0.2 for levels 20-29 |
| Presentation.TintFor | main.py:597-622 | brighter base from stage 1; golden body from stage 3; dimmed body and muted features exactly for `low_insight`; gold features from stage 3 except for `low_insight`; aura drawn when stage ≥ 2 and an aura runs |
| Presentation.TintAuraFollowsAnimator | main.py:615 | on a valid animator the aura is drawn exactly when one is running |
| Logs.LoadLog | main.py:148-153 | a missing file or one that is not valid JSON reads as empty; a parsed list is read as it is |
| Logs.AddEntry | main.py:155-158 | the new entry is first and all earlier entries follow unchanged |
| Logs.AddEntriesNewestFirst | main.py:155-158 | after adding a run of entries, the log is that run reversed followed by the earlier log |
| Logs.AddSession | main.py:113-123 | an empty history writes nothing; otherwise the new session is written first, followed by the sessions read from the file |
| Logs.CorruptLogLosesHistory | main.py:106-118 | a damaged conversation log is overwritten with only the new session |
| Chat.RecordTurn | main.py:289-293 | a turn leaves min(20, n + 2) messages; the last two are the user's input and the reply; the rest are the most recent earlier messages in order |
| Chat.RecordTurnKeepsWholeTurns | main.py:289-293 | a history of whole user/assistant turns of at most 20 messages stays so after a turn, because trimming never splits a turn |
| Chat.Contains | main.py:318 | `sub in s` holds exactly when `sub` occurs at some position of `s` |
| Chat.FirstKeywordReply | main.py:317-320 | the reply is that of the first keyword in table order occurring in the text; there is none exactly when no keyword occurs |
| Chat.FallbackResponse | main.py:308-320 | the first keyword (hello, hi, how are you, thank, bye) found in the lower-cased input picks the reply; without one the default reply is given |
| Chat.FallbackMatchesInsideWords | main.py:308-320 | "Chip" is greeted, because "hi" matches inside a word |
| Chat.FallbackTriesKeywordsInOrder | main.py:308-320 | "Bye" passes over the four earlier keywords and gets the goodbye reply |
| Chat.FallbackDefault | main.py:308-320 | "ok" gets the default reply |
| Chat.RemoteReply | main.py:266-287 | without a key or after a failed call there is no remote reply; message content is kept stripped; legacy text is kept stripped, and a missing or blank one becomes "I'm here to listen." |
| Chat.RemoteReplyTrimmed | main.py:276-282 | a remote reply never starts or ends with white space; a legacy reply is never empty; blank message content is recorded as the empty string |
| Chat.TurnReply | main.py:266-287 | the recorded reply is the remote branch's processed reply when there is one, and the fallback reply without a key or after a failed call |
| Chat.ChatTurn | main.py:265-293 | after a turn the history holds between 2 and 20 messages, two more than before while that fits; it ends with the user's input and then the reply, preceded by the most recent earlier messages in order |
| Chat.Strip | main.py:772 | the stripped text is a contiguous part of the input, only white space lies outside it, and it neither starts nor ends with white space |
| Chat.StripOfBlank | main.py:278 | text made only of white space strips to the empty string |
| Chat.StripIdempotent | main.py:772 | stripping twice is stripping once |
| Chat.AfterFirstColon | main.py:772 | `split(":", 1)[1]` is the text after the first colon |
| Chat.HandleResponse | main.py:767-776 | a reply starting with `ACTION:` navigates to the stripped text after the prefix and is not shown; any other reply is shown unchanged |
| Chat.EndSession | main.py:322-326 | ending a non-empty session puts it first in the conversation log and clears the history; an empty one writes nothing |
| Chat.EndSessionTwice | main.py:322-326 | a session just ended is over: ending it again writes nothing to the log and leaves the history empty |
| Sequences.RemoveFirst | main.py:1106 | `list.remove` drops exactly the first occurrence: the result is the list without that position, and its multiset loses one copy |
| Flows.DisplayCheckinStep | main.py:899-914 | steps 0-2 ask the three check-in questions in order with progress `(step + 1)/3·100` in (0, 100]; later steps complete the check-in |
| Flows.NextCheckinStep | main.py:933-937 | a choice is stored under its category, other answers are kept, and the step advances by one |
| Flows.CheckinSummary | main.py:945 | the logged summary is "Emotionally feeling ", the emotional answer, ", physically ", the physical answer, ", mentally ", the mental answer and a full stop, each missing answer read as "N/A" |
| Flows.SummaryOfUnansweredCheckin | main.py:945 | a check-in with no answers is summarised as "Emotionally feeling N/A, physically N/A, mentally N/A." |
| Flows.CheckinWalkthrough | main.py:899-945 | answering the three questions from a new check-in shows progress 100/3, 200/3, 100, then completes with all three answers recorded and summarised in order |
| Flows.FlowReward | main.py:1119-1125 | CBT rewards insight +50 with 20 xp, DBT rewards calm +50 with 20 xp, and any other flow type gets no reward |
| Flows.RewardEffect | main.py:219-235 | a reward sets the need to its decayed value plus the amount (capped at 100), restarts only that clock, adds the xp with at most one level-up, and keeps the progression invariant |
| Flows.CompleteCheckin | main.py:941-956 | completing a check-in logs it first in the entries, then feeds clarity 50 and adds 10 xp |
| Flows.CheckinRewardEffect | main.py:949-953 | a completed check-in refills clarity by 50 (capped), restarts only clarity's clock, and puts a "Check-in" entry in front of the log |
| Flows.CompleteFlow | main.py:1110-1130 | completing a flow logs it first under its type; only CBT and DBT also change the companion |
| Flows.FlowRewardEffect | main.py:1119-1125 | CBT refills insight by 50 and DBT calm by 50, each restarting only that clock; any other flow type leaves the companion unchanged |
| Flows.DisplayFlowStep | main.py:976-991 | the questions come in order, then the checklist exactly at the step after the last question when there is one, then completion |
| Flows.FlowsEndWithChecklist | main.py:1132-1142 | the CBT flow shows its checklist at step 3 and completes at step 4; the DBT flow does so at steps 6 and 7 |
| Flows.BuiltInFlowsWellFormed | main.py:74-95 | the CBT and DBT questions have distinct answer keys; the CBT questions take text and the DBT questions take ratings; their checklists have 12 and 4 items |
| Flows.AnswerText | main.py:1048-1056 | a text answer is stored under its key and the flow advances by one step |
| Flows.QuestionKeys | main.py:998 | the answer keys of a flow's questions, in order |
| Flows.AnswerAllAdvances | main.py:1048-1056 | answering `k` questions advances `k` steps; each key keeps its last answer; unanswered keys and the checklist are untouched |
| Flows.AnsweringEveryQuestion | main.py:976-1056 | answering every question of a text-only flow with distinct keys reaches its checklist (or completion without one), with every answer stored under its key |
| Flows.SetRating | main.py:1058-1059 | a rating is stored under its key and does not advance the flow |
| Flows.ToggleChecklistItem | main.py:1097-1108 | ticking adds the item once at the end, creating the list on first use; ticking a listed item changes nothing; unticking a listed item removes its first occurrence and keeps the order of the rest; unticking anything else changes nothing; answers are untouched |
| Flows.ToggleKeepsNoDuplicates | main.py:1097-1108 | ticking and unticking never create a duplicate, and an unticked item is no longer listed |
| Flows.TickTwiceAndUntick | main.py:1097-1108 | ticking twice is ticking once, and unticking a freshly ticked item restores the list (an empty list if there was none) |

## Left out

- File I/O of the state file, the logs, `JerryMemory` and the settings: these are modelled as values (`StoredFile`, `StoredLog`). Write failures are only logged by the source.
- `time.time()` and `datetime.now()` are parameters. The three clock reads of the constructor (main.py:174) and the two inside `feed` are each taken as one instant `now`.
- Need values and the check-in progress are exact `real`s, not IEEE doubles. Rounding of the decay formula and of the progress value (`1/3*100` is 33.33333333333333 in the source, 100/3 here) is not modelled.
- Companion.NextThreshold: models `int(t * 1.5)` exactly. It does not model the float rounding of `t * 1.5`, which differs from the exact floor once 3t/2 reaches 2^52 (t = 3002399751580333 gives one more).
- Logs.LoadLog: only a missing file and invalid JSON read as empty, as `except (FileNotFoundError, json.JSONDecodeError)` catches (main.py:110, main.py:152). A file that is not UTF-8, unreadable or a directory raises instead, and JSON that is not a list fails at `insert` (main.py:118, main.py:157); these are not modelled. `load_state`'s catch-all (main.py:193) has no counterpart here.
- `update_needs`' exception branch (a non-numeric feeding time in a hand-edited file) is not modelled. Values are typed.
- `Companion.State.xp` is an integer. The source would also accept float awards, but every caller passes an integer.
- Chat.FallbackResponse: lower-cases ASCII letters only (`Chat.Lower`). Python's `str.lower` also folds non-ASCII capitals, some of which lower to ASCII letters.
- The remote text-generation call, the background thread, the chat lock and the `is_thinking` flag: these are concurrency and a foreign network API. The call's outcome enters `Chat.RemoteReply` as a parameter (`Chat.Remote`: no key, a failed call, message content, or legacy text).
- Kivy widgets, screen navigation, sprite matrices, canvas drawing and the RGBA arithmetic of `draw_sprite`: only the frame counts and a symbolic tint (`Presentation.TintFor`) are modelled.
- `Clock` scheduling: the tick interval is state (`Animator.interval`), with no timers.
- The random affirmation choice: randomness.
- Flows.AnsweringEveryQuestion: assumes one answer callback fires per press of Next. In the program the bindings accumulate: main.py:1040 and main.py:1090 unbind the bound method `get_text_input_answer`, but main.py:1043 binds the closure that method returns, so the unbind never matches. In the source, a later press fires every earlier text callback too, advancing several steps at once, and Complete on the checklist also fires them, so a flow can be logged and rewarded more than once. The model states the intended one-step behaviour (`Flows.AnswerText`).
- Flows.AnsweringEveryQuestion: covers text-only flows such as CBT. main.py never moves past a rating question: its toggle buttons only call `set_rating_answer` (main.py:1011-1028, main.py:1058-1059), which stores the rating without advancing, and the Next button is bound to an answer callback only for text questions (main.py:1029-1043). How the DBT flow, whose six questions are all ratings, gets past its first question is decided outside main.py (the screen's KV layout is not part of this model).
- Other button bindings of the therapy and check-in screens: UI wiring.
- The `sm` screen-manager check before navigating: UI wiring.
- navigationdrawer.py, google_ai_client.py and check_kv.py: UI widget, HTTP client and a KV parse script.

=== FILE: chat.dfy ===
/** The chat side of `JerryAI` and `JerryScreen` in main.py: the bounded
    history a turn leaves behind, the keyword fallback responder, the
    `ACTION:` routing of replies, and ending a session. The remote
    text-generation call is an injected result and the background thread is
    not modelled. */
module Chat {
  import opened Wrappers
  import Logs
  import opened Sequences

  datatype Role = User | Assistant

  datatype Message = Message(role: Role, content: string)

  /** `JerryAI.MAX_HISTORY`: the number of messages kept. */
  const MaxHistory: nat := 20

  /** `h` begins with the most recent messages of `history`, as many as it
      has room for before the latest question and reply. */
  ghost predicate KeepsRecent(history: seq<Message>, h: seq<Message>)
  {
    && 2 <= |h| <= |history| + 2
    && forall i :: 0 <= i < |h| - 2 ==> h[i] == history[|history| - (|h| - 2) + i]
  }

  /** The history a turn leaves: the question and the reply appended, then
      only the last `MaxHistory` messages kept. */
  function RecordTurn(history: seq<Message>, userInput: string, reply: string): (h: seq<Message>)
    ensures |h| == if |history| + 2 <= MaxHistory then |history| + 2 else MaxHistory
    ensures h[|h| - 2] == Message(User, userInput) && h[|h| - 1] == Message(Assistant, reply)
    ensures KeepsRecent(history, h)
  {
    var full := history + [Message(User, userInput), Message(Assistant, reply)];
    if |full| > MaxHistory then full[|full| - MaxHistory..] else full
  }

  /** A history made of whole turns: a question from the user followed by the
      assistant's reply, again and again. */
  ghost predicate WholeTurns(h: seq<Message>)
  {
    && |h| % 2 == 0
    && forall k :: 0 <= k < |h| / 2 ==> h[2 * k].role == User && h[2 * k + 1].role == Assistant
  }

  /** Appending a question and its reply to whole turns gives whole turns. */
  lemma AppendTurnKeepsWholeTurns(history: seq<Message>, userInput: string, reply: string)
    requires WholeTurns(history)
    ensures WholeTurns(history + [Message(User, userInput), Message(Assistant, reply)])
  {
    var full := history + [Message(User, userInput), Message(Assistant, reply)];
    forall k | 0 <= k < |full| / 2
      ensures full[2 * k].role == User && full[2 * k + 1].role == Assistant
    {
      if k < |history| / 2 {
        assert full[2 * k] == history[2 * k] && full[2 * k + 1] == history[2 * k + 1];
      }
    }
  }

  /** Dropping the oldest turn of whole turns leaves whole turns. */
  lemma DropTurnKeepsWholeTurns(full: seq<Message>)
    requires WholeTurns(full) && |full| >= 2
    ensures WholeTurns(full[2..])
  {
    var h := full[2..];
    forall k | 0 <= k < |h| / 2
      ensures h[2 * k].role == User && h[2 * k + 1].role == Assistant
    {
      assert h[2 * k] == full[2 * (k + 1)] && h[2 * k + 1] == full[2 * (k + 1) + 1];
    }
  }

  /** Trimming the history to twenty messages never splits a turn, and the
      history never grows past twenty. */
  lemma RecordTurnKeepsWholeTurns(history: seq<Message>, userInput: string, reply: string)
    requires WholeTurns(history) && |history| <= MaxHistory
    ensures WholeTurns(RecordTurn(history, userInput, reply))
    ensures |RecordTurn(history, userInput, reply)| <= MaxHistory
  {
    var full := history + [Message(User, userInput), Message(Assistant, reply)];
    AppendTurnKeepsWholeTurns(history, userInput, reply);
    if |full| > MaxHistory {
      DropTurnKeepsWholeTurns(full);
      assert RecordTurn(history, userInput, reply) == full[2..];
    } else {
      assert RecordTurn(history, userInput, reply) == full;
    }
  }

  /** ASCII upper-case letters to lower case, every other character unchanged. */
  function LowerChar(c: char): char
  {
    if 'A' <= c <= 'Z' then (c as int - 'A' as int + 'a' as int) as char else c
  }

  function Lower(s: string): (r: string)
    ensures |r| == |s| && forall i :: 0 <= i < |s| ==> r[i] == LowerChar(s[i])
  {
    seq(|s|, i requires 0 <= i < |s| => LowerChar(s[i]))
  }

  /** `sub` occurs in `s` starting at position `i`. */
  ghost predicate OccursAt(s: string, sub: string, i: int)
  {
    0 <= i && i + |sub| <= |s| && s[i..i + |sub|] == sub
  }

  /** Python's `sub in s`. */
  function Contains(s: string, sub: string): (b: bool)
    ensures b <==> exists i :: OccursAt(s, sub, i)
    decreases |s|
  {
    if |sub| > |s| then false
    else if s[..|sub|] == sub then
      assert OccursAt(s, sub, 0);
      true
    else
      var rest := Contains(s[1..], sub);
      forall i | 0 <= i
        ensures OccursAt(s[1..], sub, i) <==> OccursAt(s, sub, i + 1)
      {
        if i + |sub| <= |s| - 1 {
          assert s[1..][i..i + |sub|] == s[i + 1..i + 1 + |sub|];
        }
      }
      assert !OccursAt(s, sub, 0);
      assert forall i :: OccursAt(s, sub, i) && i != 0 ==> OccursAt(s[1..], sub, i - 1);
      rest
  }

  const Greeting: string := "Hello! It's good to see you."

  /** The fallback responder's keywords with their replies, in the order they
      are tried. */
  const KeywordReplies: seq<(string, string)> := [
    ("hello", Greeting),
    ("hi", Greeting),
    ("how are you", "I'm doing well, thank you! How can I help you today?"),
    ("thank", "You're very welcome!"),
    ("bye", "Goodbye! Have a great day!")
  ]

  const DefaultReply: string := "I'm here to listen. Tell me what's on your mind."

  /** The reply of the first keyword of `table` that occurs in `text`. */
  function FirstKeywordReply(table: seq<(string, string)>, text: string): (r: Option<string>)
    ensures r.None? <==> forall i :: 0 <= i < |table| ==> !Contains(text, table[i].0)
    ensures r.Some? ==> exists i :: 0 <= i < |table| && Contains(text, table[i].0) && r.value == table[i].1
                                    && forall j :: 0 <= j < i ==> !Contains(text, table[j].0)
  {
    if |table| == 0 then None
    else if Contains(text, table[0].0) then Some(table[0].1)
    else
      var r := FirstKeywordReply(table[1..], text);
      if r.Some? then
        var i :| 0 <= i < |table| - 1 && Contains(text, table[1..][i].0) && r.value == table[1..][i].1
                 && forall j :: 0 <= j < i ==> !Contains(text, table[1..][j].0);
        assert Contains(text, table[i + 1].0) && r.value == table[i + 1].1;
        assert forall j :: 0 <= j < i + 1 ==> !Contains(text, table[j].0) by {
          forall j | 0 <= j < i + 1 ensures !Contains(text, table[j].0) {
            if j > 0 { assert table[j] == table[1..][j - 1]; }
          }
        }
        r
      else
        assert forall i :: 0 <= i < |table| ==> !Contains(text, table[i].0) by {
          forall i | 0 <= i < |table| ensures !Contains(text, table[i].0) {
            if i > 0 { assert table[i] == table[1..][i - 1]; }
          }
        }
        r
  }

  /** `get_fallback_response`: the reply of the first keyword found in the
      lower-cased input, or the default reply when none is. */
  function FallbackResponse(userInput: string): (reply: string)
    ensures (forall i :: 0 <= i < |KeywordReplies| ==> !Contains(Lower(userInput), KeywordReplies[i].0))
              ==> reply == DefaultReply
    ensures forall i :: (0 <= i < |KeywordReplies| && Contains(Lower(userInput), KeywordReplies[i].0)
                          && (forall j :: 0 <= j < i ==> !Contains(Lower(userInput), KeywordReplies[j].0)))
                          ==> reply == KeywordReplies[i].1
  {
    FirstKeywordReply(KeywordReplies, Lower(userInput)).GetOr(DefaultReply)
  }

  /** Keywords match anywhere in the lower-cased input: "hi" inside "Chip"
      greets. */
  lemma FallbackMatchesInsideWords()
    ensures FallbackResponse("Chip") == Greeting
  {
    var t := KeywordReplies;
    assert t[0].0 == "hello" && t[1] == ("hi", Greeting);
    assert Lower("Chip") == "chip";
    assert OccursAt("chip", "hi", 1);
    assert !Contains("chip", "hello");
  }

  /** Keywords are tried in table order: "Bye" passes over the four earlier
      keywords and says goodbye. */
  lemma FallbackTriesKeywordsInOrder()
    ensures FallbackResponse("Bye") == "Goodbye! Have a great day!"
  {
    var t := KeywordReplies;
    assert t[0].0 == "hello" && t[1].0 == "hi" && t[2].0 == "how are you";
    assert t[3].0 == "thank" && t[4] == ("bye", "Goodbye! Have a great day!");
    assert Lower("Bye") == "bye";
    assert !Contains("bye", "hi") by {
      assert "bye"[..2] == "by" && "bye"[1..] == "ye" && "ye"[..2] == "ye" && "ye"[1..] == "e";
      assert !Contains("e", "hi");
    }
    assert !Contains("bye", "hello") && !Contains("bye", "how are you") && !Contains("bye", "thank");
    assert OccursAt("bye", "bye", 0);
  }

  /** An input with no keyword gets the default reply. */
  lemma FallbackDefault()
    ensures FallbackResponse("ok") == DefaultReply
  {
    var t := KeywordReplies;
    assert t[0].0 == "hello" && t[1].0 == "hi" && t[2].0 == "how are you";
    assert t[3].0 == "thank" && t[4].0 == "bye";
    assert Lower("ok") == "ok";
    assert !Contains("ok", "hi") by {
      assert "ok"[..2] == "ok" && "ok"[1..] == "k";
      assert !Contains("k", "hi");
    }
    assert !Contains("ok", "hello") && !Contains("ok", "how are you");
    assert !Contains("ok", "thank") && !Contains("ok", "bye");
  }

  /** What the remote branch of `get_response_thread` obtained: no API key,
      a call that raised, a first choice with message content, or a first
      choice without message content and with an optional legacy `text`
      attribute (a missing or `None` content makes `.strip()` raise, which
      sends the source to that attribute). A `text` of `None` or an empty
      list of choices raises again and counts as `CallFailed`. */
  datatype Remote = NoKey | CallFailed | Content(content: string) | LegacyText(text: Option<string>)

  /** The reply recorded for a legacy response without any text. */
  const Listening: string := "I'm here to listen."

  /** The reply the remote branch records, if it produced one: the message
      content stripped of surrounding white space, or the stripped legacy text
      with `Listening` in place of a blank one. `None` without a key or after
      a failed call. */
  function RemoteReply(remote: Remote): (r: Option<string>)
    ensures r.None? <==> remote.NoKey? || remote.CallFailed?
    ensures remote.Content? ==> r == Some(Strip(remote.content))
    ensures remote.LegacyText? && |Strip(remote.text.GetOr(""))| > 0 ==> r == Some(Strip(remote.text.GetOr("")))
    ensures remote.LegacyText? && |Strip(remote.text.GetOr(""))| == 0 ==> r == Some(Listening)
  {
    match remote
    case NoKey => None
    case CallFailed => None
    case Content(content) => Some(Strip(content))
    case LegacyText(text) =>
      var t := Strip(text.GetOr(""));
      Some(if |t| == 0 then Listening else t)
  }

  /** A remote reply is recorded without surrounding white space; a legacy
      reply is never empty, while blank message content is recorded as the
      empty string. */
  lemma RemoteReplyTrimmed(remote: Remote)
    requires remote.Content? || remote.LegacyText?
    ensures RemoteReply(remote).Some?
    ensures var reply := RemoteReply(remote).value;
            |reply| > 0 ==> !IsSpace(reply[0]) && !IsSpace(reply[|reply| - 1])
    ensures remote.LegacyText? ==> |RemoteReply(remote).value| > 0
    ensures remote.Content? && (forall i :: 0 <= i < |remote.content| ==> IsSpace(remote.content[i])) ==>
              RemoteReply(remote).value == ""
  {
    match remote
    case Content(content) =>
      if forall i :: 0 <= i < |content| ==> IsSpace(content[i]) {
        StripOfBlank(content);
      }
    case LegacyText(text) =>
      assert Listening[0] == 'I' && Listening[|Listening| - 1] == '.';
  }

  /** The reply a chat turn records: the remote branch's reply when it
      produced one, the fallback responder's without a key or after a failed
      call. */
  function TurnReply(userInput: string, remote: Remote): (reply: string)
    ensures RemoteReply(remote).Some? ==> reply == RemoteReply(remote).value
    ensures remote.NoKey? || remote.CallFailed? ==> reply == FallbackResponse(userInput)
  {
    RemoteReply(remote).GetOr(FallbackResponse(userInput))
  }

  /** A chat turn: the recorded history after the reply arrives. */
  function ChatTurn(history: seq<Message>, userInput: string, remote: Remote): (h: seq<Message>)
    ensures 2 <= |h| <= MaxHistory
    ensures |history| + 2 <= MaxHistory ==> |h| == |history| + 2
    ensures h[|h| - 2] == Message(User, userInput)
    ensures h[|h| - 1] == Message(Assistant, TurnReply(userInput, remote))
    ensures KeepsRecent(history, h)
  {
    RecordTurn(history, userInput, TurnReply(userInput, remote))
  }

  /** Python's `str.isspace` for one character: the characters `str.strip`
      removes when given no argument. */
  predicate IsSpace(c: char)
  {
    || '\t' <= c <= '\r'
    || '\U{1c}' <= c <= '\U{1f}'
    || c == ' ' || c == '\U{85}' || c == '\U{a0}' || c == '\U{1680}'
    || '\U{2000}' <= c <= '\U{200a}'
    || c == '\U{2028}' || c == '\U{2029}' || c == '\U{202f}' || c == '\U{205f}' || c == '\U{3000}'
  }

  /** The first position at or after `i` that does not hold white space
      (`|s|` when there is none): where `str.strip` starts keeping. */
  function SkipSpaces(s: string, i: nat): (j: nat)
    requires i <= |s|
    ensures i <= j <= |s|
    ensures forall k :: i <= k < j ==> IsSpace(s[k])
    ensures j < |s| ==> !IsSpace(s[j])
    decreases |s| - i
  {
    if i < |s| && IsSpace(s[i]) then SkipSpaces(s, i + 1) else i
  }

  /** Just past the last position before `j` and not before `lo` that does
      not hold white space (`lo` when there is none): where `str.strip` stops
      keeping. */
  function SkipSpacesBack(s: string, lo: nat, j: nat): (e: nat)
    requires lo <= j <= |s|
    ensures lo <= e <= j
    ensures forall k :: e <= k < j ==> IsSpace(s[k])
    ensures e > lo ==> !IsSpace(s[e - 1])
    decreases j
  {
    if j > lo && IsSpace(s[j - 1]) then SkipSpacesBack(s, lo, j - 1) else j
  }

  /** `r` is `s` from position `i` on, with only white space around it. */
  ghost predicate TrimmedAt(s: string, r: string, i: int)
  {
    && 0 <= i <= |s| - |r| && r == s[i..i + |r|]
    && (forall k :: 0 <= k < i ==> IsSpace(s[k]))
    && (forall k :: i + |r| <= k < |s| ==> IsSpace(s[k]))
  }

  /** `str.strip()`: `s` without its leading and trailing white space. */
  function Strip(s: string): (r: string)
    ensures exists i :: TrimmedAt(s, r, i)
    ensures |r| > 0 ==> !IsSpace(r[0]) && !IsSpace(r[|r| - 1])
  {
    var i := SkipSpaces(s, 0);
    var e := SkipSpacesBack(s, i, |s|);
    assert TrimmedAt(s, s[i..e], i);
    s[i..e]
  }

  /** Text made only of white space strips to the empty string. */
  lemma StripOfBlank(s: string)
    requires forall i :: 0 <= i < |s| ==> IsSpace(s[i])
    ensures Strip(s) == ""
  {
  }

  /** Stripping twice is stripping once. */
  lemma StripIdempotent(s: string)
    ensures Strip(Strip(s)) == Strip(s)
  {
    var r := Strip(s);
    if |r| > 0 {
      assert SkipSpaces(r, 0) == 0;
      assert SkipSpacesBack(r, 0, |r|) == |r|;
    }
  }

  /** `s.split(":", 1)[1]`: everything after the first colon. */
  function AfterFirstColon(s: string): (r: string)
    requires ':' in s
    ensures exists i :: 0 <= i < |s| && s[i] == ':' && ':' !in s[..i] && r == s[i + 1..]
  {
    s[IndexOf(s, ':') + 1..]
  }

  const ActionPrefix: string := "ACTION:"

  /** What the screen does with a reply. */
  datatype Reaction = Navigate(screen: string) | Show(text: string)

  /** `handle_ai_response`: a reply starting with `ACTION:` switches to the
      screen it names (the text after the prefix, stripped) and is not shown;
      any other reply is shown as it is. */
  function HandleResponse(response: string): (r: Reaction)
    ensures r.Navigate? <==> |response| >= |ActionPrefix| && response[..|ActionPrefix|] == ActionPrefix
    ensures r.Navigate? ==> r.screen == Strip(response[|ActionPrefix|..])
    ensures r.Show? ==> r.text == response
  {
    if |response| >= |ActionPrefix| && response[..|ActionPrefix|] == ActionPrefix then
      assert response[6] == ':';
      assert ':' !in response[..6] by {
        assert response[..6] == "ACTION";
      }
      var i := IndexOf(response, ':');
      assert i == 6;
      Navigate(Strip(AfterFirstColon(response)))
    else
      Show(response)
  }

  /** `end_session`: a non-empty history is added to the conversation log as
      its newest session and then cleared; an empty one changes nothing.
      Returns the history and the log's new content (`None`: not written). */
  function EndSession(history: seq<Message>, stored: Logs.StoredLog<Logs.Session<Message>>, stamp: string)
    : (r: (seq<Message>, Option<seq<Logs.Session<Message>>>))
    ensures r.0 == []
    ensures |history| == 0 ==> r.1.None?
    ensures |history| > 0 ==> r.1.Some? && |r.1.value| == |Logs.LoadLog(stored)| + 1
    ensures |history| > 0 ==> r.1.value[0] == Logs.Session(stamp, history)
    ensures |history| > 0 ==> r.1.value[1..] == Logs.LoadLog(stored)
  {
    if |history| > 0 then ([], Logs.AddSession(stored, history, stamp)) else (history, None)
  }

  /** A session just ended is over: ending it again writes nothing and
      leaves the history empty. */
  lemma EndSessionTwice(history: seq<Message>, stored: Logs.StoredLog<Logs.Session<Message>>,
                        later: Logs.StoredLog<Logs.Session<Message>>, stamp: string, stamp': string)
    ensures var first := EndSession(history, stored, stamp);
            EndSession(first.0, later, stamp') == ([], None)
  {
  }
}

=== FILE: companion.dfy ===
/** The companion state engine of main.py (class `JerryCompanion`): three named
    needs that decay linearly with time, a timestamp of the last feeding per
    need, and an experience/level progression. The wall clock is the injected
    parameter `now` (seconds since the epoch) and need values are `real`s. */
module Companion {

  const Clarity: string := "clarity"
  const Insight: string := "insight"
  const Calm: string := "calm"

  /** The needs in the order the constructor lists them, which is also the
      iteration order of the `needs` dictionary. */
  const NeedNames: seq<string> := [Clarity, Insight, Calm]

  /** Hours a need takes to fall from 100 to 0, fixed by the constructor. */
  const DecayRatesHours: map<string, real> := map[Clarity := 24.0, Insight := 48.0, Calm := 12.0]

  /** The rate `update_needs` falls back on for a name without a configured rate. */
  const DefaultRateHours: real := 24.0

  const FullNeed: real := 100.0
  const SecondsPerHour: real := 3600.0

  const InitialLevel: int := 1
  const InitialThreshold: int := 100

  /** The five persisted fields of a companion. */
  datatype State = State(
    needs: map<string, real>,
    lastFed: map<string, real>,
    xp: int,
    level: int,
    xpToNextLevel: int)

  /** The state the constructor builds before reading the state file: every need
      full and fed at `now`, level 1, no experience, threshold 100. */
  function Initial(now: real): (c: State)
    ensures forall i :: 0 <= i < |NeedNames| ==> NeedNames[i] in c.needs && c.needs[NeedNames[i]] == FullNeed
    ensures forall i :: 0 <= i < |NeedNames| ==> NeedNames[i] in c.lastFed && c.lastFed[NeedNames[i]] == now
    ensures c.needs.Keys == c.lastFed.Keys == DecayRatesHours.Keys
    ensures c.xp == 0 && c.level == InitialLevel && c.xpToNextLevel == InitialThreshold
  {
    State(map[Clarity := FullNeed, Insight := FullNeed, Calm := FullNeed],
          map[Clarity := now, Insight := now, Calm := now],
          0, InitialLevel, InitialThreshold)
  }

  /** The decay rate `update_needs` uses for need `n`. */
  function RateOf(n: string): (r: real)
    ensures r > 0.0
    ensures n in DecayRatesHours ==> r == DecayRatesHours[n]
    ensures n !in DecayRatesHours ==> r == DefaultRateHours
  {
    if n in DecayRatesHours then DecayRatesHours[n] else DefaultRateHours
  }

  /** Value of a need fed at `fedAt` that loses 100 points every `rateHours`
      hours, read at `now`; floored at 0 and, as in the source, not capped at 100. */
  function Decayed(fedAt: real, rateHours: real, now: real): (v: real)
    requires rateHours > 0.0
    ensures v >= 0.0
  {
    var raw := FullNeed - ((now - fedAt) / SecondsPerHour / rateHours) * FullNeed;
    if raw > 0.0 then raw else 0.0
  }

  /** The decay law: full at the feeding instant, empty from one whole decay
      period on, within [0, 100] in between, above 100 only for a clock reading
      before the feeding, and falling as time passes. */
  lemma DecayLaw(fedAt: real, rateHours: real, now: real)
    requires rateHours > 0.0
    ensures Decayed(fedAt, rateHours, fedAt) == FullNeed
    ensures now - fedAt >= rateHours * SecondsPerHour ==> Decayed(fedAt, rateHours, now) == 0.0
    ensures 0.0 <= now - fedAt < rateHours * SecondsPerHour ==>
              Decayed(fedAt, rateHours, now) == FullNeed * (1.0 - (now - fedAt) / (rateHours * SecondsPerHour))
    ensures fedAt <= now ==> Decayed(fedAt, rateHours, now) <= FullNeed
    ensures now < fedAt ==> Decayed(fedAt, rateHours, now) > FullNeed
  {
  }

  /** A later reading never shows a fuller need. */
  lemma DecayMonotone(fedAt: real, rateHours: real, t1: real, t2: real)
    requires rateHours > 0.0
    requires t1 <= t2
    ensures Decayed(fedAt, rateHours, t2) <= Decayed(fedAt, rateHours, t1)
  {
  }

  /** `update_needs`: every need that has a feeding time gets its decayed value;
      a need without one keeps its stored value. Nothing but `needs` changes. */
  function UpdateNeeds(c: State, now: real): (c': State)
    ensures c'.lastFed == c.lastFed && c'.xp == c.xp && c'.level == c.level
    ensures c'.xpToNextLevel == c.xpToNextLevel
    ensures c'.needs.Keys == c.needs.Keys + c.lastFed.Keys
    ensures forall n :: n in c.lastFed ==> c'.needs[n] == Decayed(c.lastFed[n], RateOf(n), now)
    ensures forall n :: n in c.needs && n !in c.lastFed ==> c'.needs[n] == c.needs[n]
  {
    c.(needs := map n | n in c.needs.Keys + c.lastFed.Keys ::
                  if n in c.lastFed then Decayed(c.lastFed[n], RateOf(n), now) else c.needs[n])
  }

  /** Reading twice at the same instant gives the same needs as reading once. */
  lemma UpdateNeedsIdempotent(c: State, now: real)
    ensures UpdateNeeds(UpdateNeeds(c, now), now) == UpdateNeeds(c, now)
  {
  }

  /** After an update every need that has a feeding time is non-negative, and at
      most 100 unless it was fed after `now`. */
  lemma UpdateNeedsBounds(c: State, now: real, n: string)
    requires n in c.lastFed
    ensures 0.0 <= UpdateNeeds(c, now).needs[n]
    ensures c.lastFed[n] <= now ==> UpdateNeeds(c, now).needs[n] <= FullNeed
  {
  }

  /** The outcome of `feed`: `Fed` when the name is a known need (the source
      then saves the state), `UnknownNeed` otherwise (no save). Either way the
      needs have been brought up to date first. */
  datatype FeedOutcome = Fed(state: State) | UnknownNeed(state: State)

  function Min100(x: real): (r: real)
    ensures r <= FullNeed && r <= x
    ensures r == x || r == FullNeed
  {
    if x < FullNeed then x else FullNeed
  }

  /** `feed(n, a)`: decay every need, then, if `n` is a need, add `a` capped at
      100 and restart its clock at `now`, whatever `a` is. */
  function Feed(c: State, n: string, a: real, now: real): (r: FeedOutcome)
    ensures r.Fed? <==> n in c.needs || n in c.lastFed
    ensures r.state.xp == c.xp && r.state.level == c.level && r.state.xpToNextLevel == c.xpToNextLevel
    ensures r.UnknownNeed? ==> r.state == UpdateNeeds(c, now)
    ensures r.Fed? ==> r.state.lastFed == c.lastFed[n := now]
    ensures r.Fed? ==> n in r.state.needs && n in UpdateNeeds(c, now).needs
    ensures r.Fed? ==> r.state.needs == UpdateNeeds(c, now).needs[n := Min100(UpdateNeeds(c, now).needs[n] + a)]
  {
    var u := UpdateNeeds(c, now);
    if n in u.needs then
      Fed(u.(needs := u.needs[n := Min100(u.needs[n] + a)], lastFed := u.lastFed[n := now]))
    else
      UnknownNeed(u)
  }

  /** What feeding a known need does to that need: it never exceeds 100, it
      gains the whole amount when that stays within 100, and a non-negative
      amount never lowers the decayed value (capped at 100). */
  lemma FeedLaw(c: State, n: string, a: real, now: real)
    requires n in c.lastFed
    ensures Feed(c, n, a, now).Fed?
    ensures var before := Decayed(c.lastFed[n], RateOf(n), now);
            var after := Feed(c, n, a, now).state.needs[n];
            && after <= FullNeed
            && (before + a <= FullNeed ==> after == before + a)
            && (before + a > FullNeed ==> after == FullNeed)
            && (a >= 0.0 ==> after >= Min100(before))
    ensures Feed(c, n, a, now).state.lastFed[n] == now
    ensures forall m :: m in c.lastFed && m != n ==> Feed(c, n, a, now).state.lastFed[m] == c.lastFed[m]
  {
  }

  /** `feed(n)` with its default amount of 100: a known need whose clock is
      kept is refilled to exactly 100, and every other need still decays. */
  function FeedFull(c: State, n: string, now: real): (r: FeedOutcome)
    ensures r.Fed? <==> n in c.needs || n in c.lastFed
    ensures r.Fed? && n in c.lastFed ==> n in r.state.needs && r.state.needs[n] == FullNeed
    ensures r.Fed? ==> r.state.lastFed == c.lastFed[n := now]
    ensures forall m :: m in c.lastFed && m != n ==> m in r.state.needs && r.state.needs[m] == Decayed(c.lastFed[m], RateOf(m), now)
  {
    Feed(c, n, FullNeed, now)
  }

  /** `int(t * 1.5)`: the next threshold, truncated toward zero. */
  function NextThreshold(t: int): (r: int)
    ensures t >= 0 ==> 2 * r <= 3 * t < 2 * r + 2
    ensures t <= 0 ==> 2 * r >= 3 * t > 2 * r - 2
  {
    if t >= 0 then 3 * t / 2 else -((-3 * t) / 2)
  }

  /** The threshold never shrinks while it is non-negative, and from 2 on it grows. */
  lemma NextThresholdGrows(t: int)
    requires t >= 0
    ensures NextThreshold(t) >= t
    ensures t >= 2 ==> NextThreshold(t) > t
  {
  }

  /** `level_up`: one more level, the threshold's worth of xp consumed, and a
      threshold half as large again. */
  function LevelUp(c: State): (c': State)
    ensures c'.needs == c.needs && c'.lastFed == c.lastFed
    ensures c'.level == c.level + 1
    ensures c'.xp + c.xpToNextLevel == c.xp
    ensures c'.xpToNextLevel == NextThreshold(c.xpToNextLevel)
  {
    c.(level := c.level + 1, xp := c.xp - c.xpToNextLevel, xpToNextLevel := NextThreshold(c.xpToNextLevel))
  }

  /** `add_xp(a)`: add the award, then level up at most once, whatever is left
      over. Negative awards are accepted. */
  function AddXp(c: State, a: int): (c': State)
    ensures c'.needs == c.needs && c'.lastFed == c.lastFed
    ensures c.xp + a >= c.xpToNextLevel ==> c' == LevelUp(c.(xp := c.xp + a))
    ensures c.xp + a < c.xpToNextLevel ==> c' == c.(xp := c.xp + a)
    ensures c.level <= c'.level <= c.level + 1
  {
    var gained := c.(xp := c.xp + a);
    if gained.xp >= gained.xpToNextLevel then LevelUp(gained) else gained
  }

  /** The progression invariant of every companion built by the constructor:
      level at least 1 and threshold at least 100. */
  ghost predicate ProgressionOk(c: State)
  {
    c.level >= InitialLevel && c.xpToNextLevel >= InitialThreshold
  }

  /** `add_xp` keeps the progression invariant, never lowers the level, and
      never lowers the threshold. */
  lemma AddXpKeepsProgression(c: State, a: int)
    requires ProgressionOk(c)
    ensures ProgressionOk(AddXp(c, a))
    ensures AddXp(c, a).level >= c.level
    ensures AddXp(c, a).xpToNextLevel >= c.xpToNextLevel
  {
  }

  /** A run of awards applied one after another. */
  function AddXpAll(c: State, awards: seq<int>): (c': State)
    ensures c'.needs == c.needs && c'.lastFed == c.lastFed
    decreases |awards|
  {
    if |awards| == 0 then c else AddXpAll(AddXp(c, awards[0]), awards[1..])
  }

  /** From the constructor's progression any run of awards, of any sign, keeps
      the level at least 1, the threshold at least 100, and never lowers either. */
  lemma {:induction false} AddXpAllKeepsProgression(c: State, awards: seq<int>)
    requires ProgressionOk(c)
    ensures ProgressionOk(AddXpAll(c, awards))
    ensures AddXpAll(c, awards).level >= c.level
    ensures AddXpAll(c, awards).xpToNextLevel >= c.xpToNextLevel
    ensures AddXpAll(c, awards).level <= c.level + |awards|
    decreases |awards|
  {
    if |awards| > 0 {
      AddXpKeepsProgression(c, awards[0]);
      AddXpAllKeepsProgression(AddXp(c, awards[0]), awards[1..]);
    }
  }

  /** The level-up rule as a loop: keep levelling up while the xp reaches the
      threshold. A reference definition that `AddXp` is compared against. */
  function AddXpLoop(c: State, a: int): (c': State)
    requires c.xpToNextLevel >= 1
    ensures c'.needs == c.needs && c'.lastFed == c.lastFed
    ensures c'.xp < c'.xpToNextLevel && c'.xpToNextLevel >= c.xpToNextLevel
    ensures c'.level >= c.level
  {
    Settle(c.(xp := c.xp + a))
  }

  /** Level up until the xp is below the threshold. */
  function Settle(c: State): (c': State)
    requires c.xpToNextLevel >= 1
    ensures c'.needs == c.needs && c'.lastFed == c.lastFed
    ensures c'.xp < c'.xpToNextLevel && c'.xpToNextLevel >= c.xpToNextLevel
    ensures c'.level >= c.level
    ensures c.xp < c.xpToNextLevel ==> c' == c
    decreases c.xp
  {
    if c.xp >= c.xpToNextLevel then
      NextThresholdGrows(c.xpToNextLevel);
      Settle(LevelUp(c))
    else c
  }

  /** The single level-up check agrees with the loop whenever the xp starts
      below the threshold and the award is no larger than the threshold. */
  lemma SingleCheckMatchesLoop(c: State, a: int)
    requires 0 <= c.xp < c.xpToNextLevel
    requires 0 <= a <= c.xpToNextLevel
    ensures AddXp(c, a) == AddXpLoop(c, a)
  {
  }

  /** An award no larger than the threshold keeps the xp of a settled state
      (non-negative and below the threshold) settled, and never lowers the
      threshold. */
  lemma AwardKeepsSettled(c: State, a: int)
    requires 0 <= c.xp < c.xpToNextLevel
    requires 0 <= a <= c.xpToNextLevel
    ensures 0 <= AddXp(c, a).xp < AddXp(c, a).xpToNextLevel
    ensures AddXp(c, a).xpToNextLevel >= c.xpToNextLevel
  {
    NextThresholdGrows(c.xpToNextLevel);
  }

  /** A run of awards, each credited by the loop form. */
  function AddXpLoopAll(c: State, awards: seq<int>): (c': State)
    requires c.xpToNextLevel >= 1
    ensures c'.needs == c.needs && c'.lastFed == c.lastFed
    ensures c'.xpToNextLevel >= c.xpToNextLevel
    decreases |awards|
  {
    if |awards| == 0 then c else AddXpLoopAll(AddXpLoop(c, awards[0]), awards[1..])
  }

  /** From a settled state with a threshold of at least 100, such as a new
      companion's, any run of awards between 0 and 100 (the application gives
      10 and 20) is credited by the single check exactly as by the loop. */
  lemma {:induction false} RunMatchesLoop(c: State, awards: seq<int>)
    requires 0 <= c.xp < c.xpToNextLevel && c.xpToNextLevel >= InitialThreshold
    requires forall i :: 0 <= i < |awards| ==> 0 <= awards[i] <= InitialThreshold
    ensures AddXpAll(c, awards) == AddXpLoopAll(c, awards)
    decreases |awards|
  {
    if |awards| > 0 {
      SingleCheckMatchesLoop(c, awards[0]);
      AwardKeepsSettled(c, awards[0]);
      RunMatchesLoop(AddXp(c, awards[0]), awards[1..]);
    }
  }

  /** A single award that crosses two thresholds is credited with only one
      level: from 90 xp at level 1, an award of 250 gives level 2 with 240 xp
      against a threshold of 150, where the loop gives level 3 with 90 xp
      against 225. */
  lemma LargeAwardLevelsOnce()
    ensures var c := State(map[], map[], 90, 1, 100);
            && AddXp(c, 250).level == 2 && AddXp(c, 250).xp == 240 && AddXp(c, 250).xpToNextLevel == 150
            && AddXp(c, 250).xp >= AddXp(c, 250).xpToNextLevel
            && AddXpLoop(c, 250).level == 3 && AddXpLoop(c, 250).xp == 90 && AddXpLoop(c, 250).xpToNextLevel == 225
  {
  }
}

=== FILE: flows.dfy ===
/** The guided exercises of main.py (`CheckinScreen`, `TherapyScreenBase` and
    its CBT and DBT flows) as step functions, and the rewards their completion
    dispatches to the companion. Widgets and navigation are not modelled. */
module Flows {
  import opened Wrappers
  import opened Companion
  import Logs
  import opened Sequences

  /** One question of the check-in: its title, the answers offered, and the
      key the answer is stored under. */
  datatype CheckinQuestion = CheckinQuestion(title: string, choices: seq<string>, key: string)

  const CheckinQuestions: seq<CheckinQuestion> := [
    CheckinQuestion("How are you feeling emotionally?", ["Good", "Okay", "Bad"], "emotion"),
    CheckinQuestion("How is your body feeling?", ["Energetic", "Tired", "Pain"], "physical"),
    CheckinQuestion("How is your mind today?", ["Clear", "Foggy", "Overwhelmed"], "mental")
  ]

  /** What the check-in screen shows for a step: a question with the progress
      bar's value, or nothing because the check-in is complete. */
  datatype CheckinView = Ask(question: CheckinQuestion, progress: real) | CheckinDone

  /** `display_step` of the check-in. */
  function DisplayCheckinStep(step: nat): (v: CheckinView)
    ensures v.CheckinDone? <==> step >= |CheckinQuestions|
    ensures v.Ask? ==> v.question == CheckinQuestions[step]
    ensures v.Ask? ==> 0.0 < v.progress <= 100.0
    ensures v.Ask? ==> v.progress * (|CheckinQuestions| as real) == (step + 1) as real * 100.0
  {
    if step >= |CheckinQuestions| then CheckinDone
    else Ask(CheckinQuestions[step], (step + 1) as real / (|CheckinQuestions| as real) * 100.0)
  }

  /** The check-in in progress: the current step and the answers so far. */
  datatype Checkin = Checkin(step: nat, answers: map<string, string>)

  const NewCheckin: Checkin := Checkin(0, map[])

  /** `next_step`: record the answer and move on. */
  function NextCheckinStep(c: Checkin, category: string, choice: string): (c': Checkin)
    ensures c'.step == c.step + 1
    ensures c'.answers.Keys == c.answers.Keys + {category} && c'.answers[category] == choice
    ensures forall k :: k in c.answers && k != category ==> c'.answers[k] == c.answers[k]
  {
    Checkin(c.step + 1, c.answers[category := choice])
  }

  /** Answering every question in turn, starting from a new check-in, asks
      the three questions in order and then completes with every answer
      recorded under its key. */
  lemma CheckinWalkthrough(a1: string, a2: string, a3: string)
    ensures DisplayCheckinStep(NewCheckin.step) == Ask(CheckinQuestions[0], 100.0 / 3.0)
    ensures var c1 := NextCheckinStep(NewCheckin, "emotion", a1);
            var c2 := NextCheckinStep(c1, "physical", a2);
            var c3 := NextCheckinStep(c2, "mental", a3);
            && DisplayCheckinStep(c1.step) == Ask(CheckinQuestions[1], 200.0 / 3.0)
            && DisplayCheckinStep(c2.step) == Ask(CheckinQuestions[2], 100.0)
            && DisplayCheckinStep(c3.step) == CheckinDone
            && c3.answers == map["emotion" := a1, "physical" := a2, "mental" := a3]
            && CheckinSummary(c3.answers)
               == "Emotionally feeling " + a1 + ", physically " + a2 + ", mentally " + a3 + "."
  {
  }

  /** `answers.get(key, 'N/A')`. */
  function AnswerOr(answers: map<string, string>, key: string): (a: string)
    ensures key in answers ==> a == answers[key]
    ensures key !in answers ==> a == "N/A"
  {
    if key in answers then answers[key] else "N/A"
  }

  /** The summary line a completed check-in is logged with: the emotional,
      physical and mental answers in that order, each `N/A` when missing,
      between the fixed phrases of the line. */
  function CheckinSummary(answers: map<string, string>): (r: string)
    ensures var e, p, m := AnswerOr(answers, "emotion"), AnswerOr(answers, "physical"), AnswerOr(answers, "mental");
            && |r| == 45 + |e| + |p| + |m|
            && r[..20] == "Emotionally feeling " && r[20..20 + |e|] == e
            && r[20 + |e|..33 + |e|] == ", physically " && r[33 + |e|..33 + |e| + |p|] == p
            && r[33 + |e| + |p|..44 + |e| + |p|] == ", mentally " && r[44 + |e| + |p|..|r| - 1] == m
            && r[|r| - 1] == '.'
  {
    var e, p, m := AnswerOr(answers, "emotion"), AnswerOr(answers, "physical"), AnswerOr(answers, "mental");
    SummarySlices(e, p, m);
    "Emotionally feeling " + e + ", physically " + p + ", mentally " + m + "."
  }

  /** Where each part of the summary line sits, one concatenation at a time. */
  lemma SummarySlices(e: string, p: string, m: string)
    ensures var r := "Emotionally feeling " + e + ", physically " + p + ", mentally " + m + ".";
            && |r| == 45 + |e| + |p| + |m|
            && r[..20] == "Emotionally feeling " && r[20..20 + |e|] == e
            && r[20 + |e|..33 + |e|] == ", physically " && r[33 + |e|..33 + |e| + |p|] == p
            && r[33 + |e| + |p|..44 + |e| + |p|] == ", mentally " && r[44 + |e| + |p|..|r| - 1] == m
            && r[|r| - 1] == '.'
  {
    var a := "Emotionally feeling " + e;
    var b := a + ", physically ";
    var c := b + p;
    var d := c + ", mentally ";
    var f := d + m;
    var r := f + ".";
    assert r[..|f|] == f && f[..|d|] == d && d[..|c|] == c && c[..|b|] == b && b[..|a|] == a;
    assert r[..20] == a[..20];
    assert r[20..20 + |e|] == a[20..];
    assert r[20 + |e|..33 + |e|] == b[|a|..];
    assert r[33 + |e|..33 + |e| + |p|] == c[|b|..];
    assert r[33 + |e| + |p|..44 + |e| + |p|] == d[|c|..];
    assert r[44 + |e| + |p|..|r| - 1] == f[|d|..];
  }

  /** A check-in completed without any answer recorded reads `N/A` in
      every slot. */
  lemma SummaryOfUnansweredCheckin()
    ensures CheckinSummary(map[]) == "Emotionally feeling N/A, physically N/A, mentally N/A."
  {
  }

  /** The data of an entries-log record: a check-in's summary and answers, or a
      therapy flow's answers and checklist. */
  datatype EntryData =
    | CheckinRecord(summary: string, details: map<string, string>)
    | FlowRecord(flow: FlowData)

  /** The answers of a therapy flow, and the checklist items ticked (`None`
      until the first item is ticked). */
  datatype FlowData = FlowData(answers: map<string, string>, distortions: Option<seq<string>>)

  const NewFlowData: FlowData := FlowData(map[], None)

  /** What completing an exercise gives the companion: `amount` added to
      `need`, then `xp` experience. */
  datatype Reward = Reward(need: string, amount: real, xp: int)

  const CheckinReward: Reward := Reward(Clarity, 50.0, 10)

  /** The reward of a completed therapy flow, by its type: CBT feeds insight,
      DBT feeds calm, any other type gives nothing. */
  function FlowReward(kind: string): (r: Option<Reward>)
    ensures r.Some? <==> kind == "CBT" || kind == "DBT"
    ensures kind == "CBT" ==> r == Some(Reward(Insight, 50.0, 20))
    ensures kind == "DBT" ==> r == Some(Reward(Calm, 50.0, 20))
  {
    if kind == "CBT" then Some(Reward(Insight, 50.0, 20))
    else if kind == "DBT" then Some(Reward(Calm, 50.0, 20))
    else None
  }

  /** Feed, then add the experience. */
  function ApplyReward(c: State, r: Reward, now: real): (c': State)
  {
    AddXp(Feed(c, r.need, r.amount, now).state, r.xp)
  }

  /** A reward on a companion that has a feeding time for the rewarded need:
      the need becomes its decayed value plus the amount, capped at 100, its
      clock restarts, the other clocks stay, and the xp is added with at most
      one level-up. The progression invariant is kept. */
  lemma RewardEffect(c: State, r: Reward, now: real)
    requires r.need in c.lastFed
    ensures var c' := ApplyReward(c, r, now);
            && r.need in c'.needs
            && c'.needs[r.need] == Min100(Decayed(c.lastFed[r.need], RateOf(r.need), now) + r.amount)
            && c'.lastFed == c.lastFed[r.need := now]
            && (c.xp + r.xp >= c.xpToNextLevel ==> c'.level == c.level + 1 && c'.xp == c.xp + r.xp - c.xpToNextLevel)
            && (c.xp + r.xp < c.xpToNextLevel ==> c'.level == c.level && c'.xp == c.xp + r.xp)
            && (ProgressionOk(c) ==> ProgressionOk(c'))
  {
  }

  /** The screens after completing an exercise: the companion and the entries log. */
  datatype Completion = Completion(companion: State, entries: seq<Logs.Entry<EntryData>>)

  /** `complete_checkin`: log the check-in, feed clarity 50 and add 10 xp. */
  function CompleteCheckin(c: State, now: real, entries: seq<Logs.Entry<EntryData>>,
                           answers: map<string, string>, stamp: string): (r: Completion)
    ensures r.entries == Logs.AddEntry(entries, "Check-in", CheckinRecord(CheckinSummary(answers), answers), stamp)
    ensures r.companion == ApplyReward(c, CheckinReward, now)
  {
    Completion(ApplyReward(c, CheckinReward, now),
               Logs.AddEntry(entries, "Check-in", CheckinRecord(CheckinSummary(answers), answers), stamp))
  }

  /** `complete_flow`: log the flow under its type, then reward it by type. */
  function CompleteFlow(c: State, now: real, entries: seq<Logs.Entry<EntryData>>,
                        kind: string, data: FlowData, stamp: string): (r: Completion)
    ensures r.entries == Logs.AddEntry(entries, kind, FlowRecord(data), stamp)
    ensures FlowReward(kind).None? ==> r.companion == c
    ensures FlowReward(kind).Some? ==> r.companion == ApplyReward(c, FlowReward(kind).value, now)
  {
    var companion := match FlowReward(kind)
                     case Some(reward) => ApplyReward(c, reward, now)
                     case None => c;
    Completion(companion, Logs.AddEntry(entries, kind, FlowRecord(data), stamp))
  }

  /** A completed check-in refills clarity by 50 (capped at 100) and restarts
      its clock; the log gains the check-in in front. */
  lemma CheckinRewardEffect(c: State, now: real, entries: seq<Logs.Entry<EntryData>>,
                            answers: map<string, string>, stamp: string)
    requires Clarity in c.lastFed
    ensures var r := CompleteCheckin(c, now, entries, answers, stamp);
            && r.companion.needs[Clarity] == Min100(Decayed(c.lastFed[Clarity], 24.0, now) + 50.0)
            && r.companion.lastFed == c.lastFed[Clarity := now]
            && r.entries[0].kind == "Check-in" && r.entries[1..] == entries
  {
  }

  /** A completed CBT flow refills insight by 50 and a DBT flow refills calm by
      50, each restarting that need's clock; any other type leaves the
      companion as it was. */
  lemma FlowRewardEffect(c: State, now: real, entries: seq<Logs.Entry<EntryData>>, kind: string,
                         data: FlowData, stamp: string)
    requires Insight in c.lastFed && Calm in c.lastFed
    ensures var c' := CompleteFlow(c, now, entries, kind, data, stamp).companion;
            && (kind == "CBT" ==> c'.needs[Insight] == Min100(Decayed(c.lastFed[Insight], 48.0, now) + 50.0)
                                  && c'.lastFed == c.lastFed[Insight := now])
            && (kind == "DBT" ==> c'.needs[Calm] == Min100(Decayed(c.lastFed[Calm], 12.0, now) + 50.0)
                                  && c'.lastFed == c.lastFed[Calm := now])
            && (kind != "CBT" && kind != "DBT" ==> c' == c)
  {
  }

  /** One question of a therapy flow: the key its answer is stored under, and
      whether it is answered with a 0-5 rating rather than text. */
  datatype FlowQuestion = FlowQuestion(key: string, rating: bool)

  /** A therapy flow: its type, its questions and its checklist items. */
  datatype Flow = Flow(kind: string, questions: seq<FlowQuestion>, checklist: seq<string>)

  const CbtFlow: Flow := Flow("CBT",
    [FlowQuestion("situation", false), FlowQuestion("emotions", false), FlowQuestion("thoughts", false)],
    ["All-or-Nothing Thinking", "Overgeneralization", "Mental Filter", "Disqualifying the Positive",
     "Jumping to Conclusions", "Mind Reading", "Fortune Telling", "Magnification/Minimization",
     "Emotional Reasoning", "Should Statements", "Labeling", "Personalization"])

  const DbtFlow: Flow := Flow("DBT",
    [FlowQuestion("anger", true), FlowQuestion("sadness", true), FlowQuestion("fear", true),
     FlowQuestion("shame", true), FlowQuestion("self_harm_urge", true), FlowQuestion("substance_urge", true)],
    ["Mindfulness", "Distress Tolerance", "Emotion Regulation", "Interpersonal Effectiveness"])

  /** What a therapy screen shows for a step. */
  datatype FlowView = AskQuestion(question: FlowQuestion) | ShowChecklist | FlowDone

  /** `display_step` of a therapy flow: the questions in order, then the
      checklist if the flow has one, then completion. */
  function DisplayFlowStep(f: Flow, step: nat): (v: FlowView)
    ensures v.AskQuestion? <==> step < |f.questions|
    ensures v.AskQuestion? ==> v.question == f.questions[step]
    ensures v.ShowChecklist? <==> step == |f.questions| && |f.checklist| > 0
    ensures v.FlowDone? <==> step > |f.questions| || (step == |f.questions| && |f.checklist| == 0)
  {
    if step < |f.questions| then AskQuestion(f.questions[step])
    else if step == |f.questions| && |f.checklist| > 0 then ShowChecklist
    else FlowDone
  }

  /** Both flows ask every question, then show the checklist, then complete. */
  lemma FlowsEndWithChecklist()
    ensures DisplayFlowStep(CbtFlow, 3) == ShowChecklist && DisplayFlowStep(CbtFlow, 4) == FlowDone
    ensures DisplayFlowStep(DbtFlow, 6) == ShowChecklist && DisplayFlowStep(DbtFlow, 7) == FlowDone
    ensures DisplayFlowStep(CbtFlow, 0) == AskQuestion(FlowQuestion("situation", false))
  {
  }

  /** The text-answer button: store the text and move to the next step. */
  function AnswerText(d: FlowData, step: nat, key: string, text: string): (r: (FlowData, nat))
    ensures r.0.answers == d.answers[key := text] && r.0.distortions == d.distortions
    ensures r.1 == step + 1
  {
    (d.(answers := d.answers[key := text]), step + 1)
  }

  /** Text answers given one after another from `step`. */
  function AnswerAll(d: FlowData, step: nat, keys: seq<string>, texts: seq<string>): (r: (FlowData, nat))
    requires |keys| == |texts|
    decreases |keys|
  {
    if |keys| == 0 then (d, step)
    else
      var next := AnswerText(d, step, keys[0], texts[0]);
      AnswerAll(next.0, next.1, keys[1..], texts[1..])
  }

  /** The keys of a flow's questions, in order. */
  function QuestionKeys(f: Flow): (keys: seq<string>)
    ensures |keys| == |f.questions| && forall i :: 0 <= i < |keys| ==> keys[i] == f.questions[i].key
  {
    seq(|f.questions|, i requires 0 <= i < |f.questions| => f.questions[i].key)
  }

  /** Each text answer moves one step on, so answering a run of questions
      moves that many steps; the last answer given for a key is the one kept,
      keys not answered keep their value, and the checklist is untouched. */
  lemma {:induction false} AnswerAllAdvances(d: FlowData, step: nat, keys: seq<string>, texts: seq<string>)
    requires |keys| == |texts|
    ensures AnswerAll(d, step, keys, texts).1 == step + |keys|
    ensures AnswerAll(d, step, keys, texts).0.distortions == d.distortions
    ensures forall k :: k in d.answers ==> k in AnswerAll(d, step, keys, texts).0.answers
    ensures forall i :: 0 <= i < |keys| ==> keys[i] in AnswerAll(d, step, keys, texts).0.answers
    ensures forall i :: 0 <= i < |keys| && keys[i] !in keys[i + 1..] ==>
              AnswerAll(d, step, keys, texts).0.answers[keys[i]] == texts[i]
    ensures forall k :: k in d.answers && k !in keys ==> AnswerAll(d, step, keys, texts).0.answers[k] == d.answers[k]
    decreases |keys|
  {
    if |keys| > 0 {
      var next := AnswerText(d, step, keys[0], texts[0]);
      AnswerAllAdvances(next.0, next.1, keys[1..], texts[1..]);
      var r := AnswerAll(d, step, keys, texts).0;
      forall i | 0 <= i < |keys| ensures keys[i] in r.answers {
        if i > 0 { assert keys[1..][i - 1] == keys[i]; }
      }
      forall i | 0 <= i < |keys| && keys[i] !in keys[i + 1..]
        ensures r.answers[keys[i]] == texts[i]
      {
        if i > 0 {
          assert keys[1..][i - 1] == keys[i] && keys[1..][i..] == keys[i + 1..];
        } else {
          assert keys[0] !in keys[1..];
        }
      }
    }
  }

  /** No two questions of a flow store their answers under the same key. */
  ghost predicate DistinctKeys(f: Flow)
  {
    forall i, j :: 0 <= i < j < |f.questions| ==> f.questions[i].key != f.questions[j].key
  }

  /** Answering every question of a text-only flow from the start reaches
      its checklist (or completes it, if it has none), with each answer stored
      under its question's key. Only text questions bind the Next button to
      an answer callback; a rating question never moves the step. */
  lemma AnsweringEveryQuestion(f: Flow, texts: seq<string>)
    requires |texts| == |f.questions| && DistinctKeys(f)
    requires forall i :: 0 <= i < |f.questions| ==> !f.questions[i].rating
    ensures var r := AnswerAll(NewFlowData, 0, QuestionKeys(f), texts);
            && DisplayFlowStep(f, r.1) == (if |f.checklist| > 0 then ShowChecklist else FlowDone)
            && forall i :: 0 <= i < |f.questions| ==>
                 f.questions[i].key in r.0.answers && r.0.answers[f.questions[i].key] == texts[i]
  {
    var keys := QuestionKeys(f);
    AnswerAllAdvances(NewFlowData, 0, keys, texts);
    assert forall i :: 0 <= i < |keys| ==> keys[i] !in keys[i + 1..];
  }

  /** The CBT and DBT flows have distinct answer keys and a checklist each;
      the CBT questions are answered in text and the DBT ones by rating. */
  lemma BuiltInFlowsWellFormed()
    ensures DistinctKeys(CbtFlow) && |CbtFlow.checklist| == 12
    ensures DistinctKeys(DbtFlow) && |DbtFlow.checklist| == 4
    ensures forall i :: 0 <= i < |CbtFlow.questions| ==> !CbtFlow.questions[i].rating
    ensures forall i :: 0 <= i < |DbtFlow.questions| ==> DbtFlow.questions[i].rating
  {
  }

  /** `set_rating_answer`: store the rating; the step does not move. */
  function SetRating(d: FlowData, key: string, value: string): (d': FlowData)
    ensures d'.answers == d.answers[key := value] && d'.distortions == d.distortions
  {
    d.(answers := d.answers[key := value])
  }

  /** No item appears twice. */
  ghost predicate NoDuplicates(s: seq<string>)
  {
    forall i, j :: 0 <= i < j < |s| ==> s[i] != s[j]
  }

  /** `toggle_checklist_item`: ticking adds the item unless it is already
      there (creating the list on first use); unticking removes it if the list
      exists and holds it. The answers are untouched. */
  function ToggleChecklistItem(d: FlowData, item: string, active: bool): (d': FlowData)
    ensures d'.answers == d.answers
    ensures active ==> d'.distortions.Some? && item in d'.distortions.value
    ensures active && d.distortions.Some? && item in d.distortions.value ==> d' == d
    ensures active && !(d.distortions.Some? && item in d.distortions.value) ==>
              d'.distortions == Some(d.distortions.GetOr([]) + [item])
    ensures !active && d.distortions.Some? && item in d.distortions.value ==>
              d'.distortions == Some(RemoveFirst(d.distortions.value, item))
    ensures !active && d.distortions.Some? && item in d.distortions.value ==>
              d'.distortions.Some? && multiset(d'.distortions.value) == multiset(d.distortions.value) - multiset{item}
    ensures !active && !(d.distortions.Some? && item in d.distortions.value) ==> d' == d
  {
    if active then
      var ds := d.distortions.GetOr([]);
      if item in ds then d.(distortions := Some(ds)) else d.(distortions := Some(ds + [item]))
    else if d.distortions.Some? && item in d.distortions.value then
      d.(distortions := Some(RemoveFirst(d.distortions.value, item)))
    else d
  }

  /** The ticked list never holds an item twice, and a ticked item, once
      unticked, is gone. */
  lemma ToggleKeepsNoDuplicates(d: FlowData, item: string, active: bool)
    requires d.distortions.Some? ==> NoDuplicates(d.distortions.value)
    ensures var d' := ToggleChecklistItem(d, item, active);
            d'.distortions.Some? ==> NoDuplicates(d'.distortions.value)
    ensures var d' := ToggleChecklistItem(d, item, active);
            !active && d'.distortions.Some? ==> item !in d'.distortions.value
  {
  }

  /** Ticking an item twice is ticking it once, and unticking a freshly ticked
      item gives back the list as it was (an empty one if there was none). */
  lemma TickTwiceAndUntick(d: FlowData, item: string)
    requires d.distortions.Some? ==> item !in d.distortions.value
    ensures var once := ToggleChecklistItem(d, item, true);
            ToggleChecklistItem(once, item, true) == once
    ensures ToggleChecklistItem(ToggleChecklistItem(d, item, true), item, false).distortions
              == Some(d.distortions.GetOr([]))
  {
    var ds := d.distortions.GetOr([]);
    assert ToggleChecklistItem(d, item, true).distortions == Some(ds + [item]);
    RemoveFirstOfAppended(ds, item);
  }
}

=== FILE: logs.dfy ===
/** The two JSON logs of main.py as lists: `EntriesLog` (one entry per
    completed exercise) and `ConversationLog` (one session per finished chat),
    both kept newest first. Timestamps are supplied by the caller; reading and
    writing the files is not modelled. */
module Logs {
  import opened Wrappers

  /** One record of the entries log: when, which exercise, and its data. */
  datatype Entry<D> = Entry(timestamp: string, kind: string, data: D)

  /** One record of the conversation log: when, and the messages exchanged. */
  datatype Session<M> = Session(timestamp: string, conversation: seq<M>)

  /** What `json.load` yields for a log file: both logs read a missing file
      or one that is not valid JSON as an empty list. A file that cannot be
      read at all, or that holds JSON other than a list, is not modelled. */
  datatype StoredLog<T> = Missing | Corrupt | Parsed(items: seq<T>)

  function LoadLog<T>(f: StoredLog<T>): (r: seq<T>)
    ensures f.Parsed? ==> r == f.items
    ensures !f.Parsed? ==> r == []
  {
    if f.Parsed? then f.items else []
  }

  /** `EntriesLog.add_entry`: the new entry goes in front of all the others. */
  function AddEntry<D>(entries: seq<Entry<D>>, kind: string, data: D, stamp: string): (r: seq<Entry<D>>)
    ensures |r| == |entries| + 1
    ensures r[0] == Entry(stamp, kind, data)
    ensures r[1..] == entries
  {
    [Entry(stamp, kind, data)] + entries
  }

  /** Several entries added one after another, oldest first. */
  function AddEntries<D>(entries: seq<Entry<D>>, added: seq<Entry<D>>): seq<Entry<D>>
    decreases |added|
  {
    if |added| == 0 then entries
    else AddEntries(AddEntry(entries, added[0].kind, added[0].data, added[0].timestamp), added[1..])
  }

  function Reverse<T>(s: seq<T>): (r: seq<T>)
    ensures |r| == |s|
    ensures forall i :: 0 <= i < |s| ==> r[i] == s[|s| - 1 - i]
  {
    if |s| == 0 then [] else Reverse(s[1..]) + [s[0]]
  }

  /** The log stays newest first: after adding a run of entries the log is
      that run in reverse order followed by what was there before. */
  lemma {:induction false} AddEntriesNewestFirst<D>(entries: seq<Entry<D>>, added: seq<Entry<D>>)
    ensures AddEntries(entries, added) == Reverse(added) + entries
    decreases |added|
  {
    if |added| > 0 {
      var e := added[0];
      assert AddEntry(entries, e.kind, e.data, e.timestamp) == [e] + entries;
      AddEntriesNewestFirst([e] + entries, added[1..]);
      assert Reverse(added) == Reverse(added[1..]) + [e];
    }
  }

  /** `ConversationLog.add_session`: nothing is written for an empty history;
      otherwise the file's sessions (none, if it is missing or undecodable)
      with the new session in front are written. `None` means no write. */
  function AddSession<M>(stored: StoredLog<Session<M>>, history: seq<M>, stamp: string): (r: Option<seq<Session<M>>>)
    ensures r.None? <==> |history| == 0
    ensures r.Some? ==> |r.value| == |LoadLog(stored)| + 1
    ensures r.Some? ==> r.value[0] == Session(stamp, history) && r.value[1..] == LoadLog(stored)
  {
    if |history| == 0 then None else Some([Session(stamp, history)] + LoadLog(stored))
  }

  /** A damaged conversation log is replaced by one holding only the new session. */
  lemma CorruptLogLosesHistory<M>(history: seq<M>, stamp: string)
    requires |history| > 0
    ensures AddSession(Corrupt, history, stamp) == Some([Session(stamp, history)])
  {
    assert [Session(stamp, history)] + LoadLog<Session<M>>(Corrupt) == [Session(stamp, history)];
  }
}

=== FILE: persistence.dfy ===
/** The state file of `JerryCompanion` (`load_state`/`save_state`) as values:
    the file is either absent, unreadable, or a JSON object whose five keys may
    each be missing. Reading and writing the file itself is outside the model. */
module Persistence {
  import opened Wrappers
  import opened Companion

  /** What `json.load` yields for the state file. `Malformed` stands for every
      failure to obtain a JSON object: a decode error or any other exception. */
  datatype StoredFile =
    | Absent
    | Malformed
    | Document(
        needs: Option<map<string, real>>,
        lastFed: Option<map<string, real>>,
        xp: Option<int>,
        level: Option<int>,
        xpToNextLevel: Option<int>)

  /** The result of `load_state`: the companion state, and whether the source
      writes that state back to the file. */
  datatype Loaded = Loaded(state: State, writeBack: bool)

  /** `save_state`: a document holding exactly the five fields. */
  function Save(c: State): (f: StoredFile)
    ensures f.Document?
    ensures f.needs == Some(c.needs) && f.lastFed == Some(c.lastFed)
    ensures f.xp == Some(c.xp) && f.level == Some(c.level) && f.xpToNextLevel == Some(c.xpToNextLevel)
  {
    Document(Some(c.needs), Some(c.lastFed), Some(c.xp), Some(c.level), Some(c.xpToNextLevel))
  }

  /** `load_state` applied to the state `current` the object already holds:
      each key present in the document replaces its field, each missing key
      keeps the current value; a missing or unreadable file keeps everything
      and writes the current state back. */
  function Load(current: State, f: StoredFile): (r: Loaded)
    ensures !f.Document? ==> r == Loaded(current, true)
    ensures f.Document? ==> !r.writeBack
    ensures f.Document? ==> r.state.needs == f.needs.GetOr(current.needs)
    ensures f.Document? ==> r.state.lastFed == f.lastFed.GetOr(current.lastFed)
    ensures f.Document? ==> r.state.xp == f.xp.GetOr(current.xp)
    ensures f.Document? ==> r.state.level == f.level.GetOr(current.level)
    ensures f.Document? ==> r.state.xpToNextLevel == f.xpToNextLevel.GetOr(current.xpToNextLevel)
  {
    match f
    case Document(needs, lastFed, xp, level, threshold) =>
      Loaded(State(needs.GetOr(current.needs), lastFed.GetOr(current.lastFed), xp.GetOr(current.xp),
                   level.GetOr(current.level), threshold.GetOr(current.xpToNextLevel)), false)
    case _ => Loaded(current, true)
  }

  /** The constructor: the initial state at `now`, then `load_state`. Each
      field comes from the document when it names it and from the defaults
      (full needs fed at `now`, no xp, level 1, threshold 100) otherwise; the
      state is written back exactly when there is no readable document. */
  function Construct(now: real, f: StoredFile): (r: Loaded)
    ensures r.writeBack <==> !f.Document?
    ensures r.state.needs == (if f.Document? && f.needs.Some? then f.needs.value
                              else map[Clarity := FullNeed, Insight := FullNeed, Calm := FullNeed])
    ensures r.state.lastFed == (if f.Document? && f.lastFed.Some? then f.lastFed.value
                                else map[Clarity := now, Insight := now, Calm := now])
    ensures r.state.xp == (if f.Document? && f.xp.Some? then f.xp.value else 0)
    ensures r.state.level == (if f.Document? && f.level.Some? then f.level.value else 1)
    ensures r.state.xpToNextLevel == (if f.Document? && f.xpToNextLevel.Some? then f.xpToNextLevel.value else 100)
  {
    Load(Initial(now), f)
  }

  /** Saving and loading gives back the saved state, whatever the loading
      object held before, and nothing is written back. */
  lemma LoadSaveRoundTrip(c: State, current: State)
    ensures Load(current, Save(c)) == Loaded(c, false)
  {
  }

  /** Saving what was loaded from a complete document reproduces the document. */
  lemma SaveLoadRoundTrip(current: State, f: StoredFile)
    requires f.Document? && f.needs.Some? && f.lastFed.Some? && f.xp.Some? && f.level.Some? && f.xpToNextLevel.Some?
    ensures Save(Load(current, f).state) == f
  {
  }

  /** Loading is a merge: loading a document on top of the state the same
      document produced changes nothing. */
  lemma LoadIdempotent(current: State, f: StoredFile)
    ensures Load(Load(current, f).state, f).state == Load(current, f).state
  {
  }

  /** A first run, or a run after the file was damaged, starts from full needs
      fed at `now`, level 1, no xp and threshold 100, and writes that state out. */
  lemma ConstructWithoutFile(now: real, f: StoredFile)
    requires !f.Document?
    ensures Construct(now, f).writeBack
    ensures var c := Construct(now, f).state;
            && c.level == 1 && c.xp == 0 && c.xpToNextLevel == 100
            && Clarity in c.needs && Insight in c.needs && Calm in c.needs
            && c.needs[Clarity] == 100.0 && c.needs[Insight] == 100.0 && c.needs[Calm] == 100.0
            && c.lastFed == map[Clarity := now, Insight := now, Calm := now]
  {
  }

  /** A document that only names the level keeps the constructor's needs,
      feeding times, xp and threshold. */
  lemma PartialDocumentKeepsDefaults(now: real, level: int)
    ensures var c := Construct(now, Document(None, None, None, Some(level), None)).state;
            c == Initial(now).(level := level)
  {
  }
}

=== FILE: presentation.dfy ===
/** The selection arithmetic of `JerryAnimator` and `JerryScreen` in main.py:
    which animation the needs call for, how fast it ticks, which frame comes
    next, the evolution stage, its title, the aura and a symbolic tint. The
    drawing itself, the sprite matrices and the Kivy clock are not modelled. */
module Presentation {
  import opened Wrappers
  import opened Companion

  const ContentKey: string := "content"
  const ThinkingKey: string := "thinking"
  const LowPrefix: string := "low_"
  const LowCalmKey: string := "low_calm"

  /** A need below this value is shown as low. */
  const LowNeed: real := 50.0

  /** Tick intervals in seconds: the agitated low-calm animation, every other
      need-driven animation, and the thinking animation. */
  const AgitatedInterval: real := 0.15
  const BaseInterval: real := 0.35
  const ThinkingInterval: real := 0.5

  /** Frames per animation in the sprite table; `low_clarity` is an alias of
      `content`. */
  const SpriteFrames: map<string, nat> :=
    map["content" := 2, "low_insight" := 2, "low_calm" := 2, "thinking" := 2, "low_clarity" := 2]

  /** `keys` is the dictionary's iteration order: every key of `needs` exactly
      once. */
  ghost predicate Listed(keys: seq<string>, needs: map<string, real>)
  {
    && (forall k :: k in needs <==> k in keys)
    && (forall i, j :: 0 <= i < j < |keys| ==> keys[i] != keys[j])
  }

  /** Position of the first key in `keys` whose value is minimal among the
      keys of `keys`. */
  function FirstMinimal(keys: seq<string>, needs: map<string, real>): (i: nat)
    requires |keys| > 0 && forall j :: 0 <= j < |keys| ==> keys[j] in needs
    ensures i < |keys|
    ensures forall j :: 0 <= j < |keys| ==> needs[keys[i]] <= needs[keys[j]]
    ensures forall j :: 0 <= j < i ==> needs[keys[j]] > needs[keys[i]]
  {
    if |keys| == 1 then 0
    else
      var j := 1 + FirstMinimal(keys[1..], needs);
      if needs[keys[0]] <= needs[keys[j]] then 0 else j
  }

  /** Position of `min(needs, key=needs.get)` in the iteration order: a need
      no other need is below, and the first such in iteration order. */
  function MinIndex(keys: seq<string>, needs: map<string, real>): (i: nat)
    requires |needs| > 0 && Listed(keys, needs)
    ensures i < |keys| && keys[i] in needs
    ensures forall k :: k in needs ==> needs[keys[i]] <= needs[k]
    ensures forall j :: 0 <= j < i ==> needs[keys[j]] > needs[keys[i]]
  {
    assert |keys| > 0 by {
      var k :| k in needs;
      assert k in keys;
    }
    FirstMinimal(keys, needs)
  }

  /** The animation the needs call for: `low_<m>` for the first minimal need
      `m` when it is below 50, `content` otherwise; `None` when there are no
      needs (`min` of an empty dictionary fails and the tick does nothing). */
  function AnimationKey(keys: seq<string>, needs: map<string, real>): (k: Option<string>)
    requires Listed(keys, needs)
    ensures k.None? <==> |needs| == 0
    ensures k.Some? ==> var m := keys[MinIndex(keys, needs)];
                        && (needs[m] < LowNeed ==> k.value == LowPrefix + m)
                        && (needs[m] >= LowNeed ==> k.value == ContentKey)
    ensures k == Some(ContentKey) <==> |needs| > 0 && forall n :: n in needs ==> needs[n] >= LowNeed
    ensures k.Some? && k.value != ContentKey ==>
              exists m :: m in needs && k.value == LowPrefix + m && needs[m] < LowNeed
                          && forall n :: n in needs ==> needs[m] <= needs[n]
  {
    if |needs| == 0 then None
    else
      var m := keys[MinIndex(keys, needs)];
      assert LowPrefix + m != ContentKey by {
        assert (LowPrefix + m)[0] == 'l';
      }
      Some(if needs[m] < LowNeed then LowPrefix + m else ContentKey)
  }

  /** The tick interval an animation key asks for. */
  function IntervalFor(key: string): (r: real)
    ensures r == AgitatedInterval <==> key == LowCalmKey
    ensures r == AgitatedInterval || r == BaseInterval
  {
    if key == LowCalmKey then AgitatedInterval else BaseInterval
  }

  /** The selection for the three needs in their default order, as a relation
      on their values: each low key exactly when its need is below 50 and
      strictly below the needs listed before it and no greater than those
      after; `content` exactly when every need is at least 50. */
  lemma DefaultOrderSelection(needs: map<string, real>)
    requires needs.Keys == {Clarity, Insight, Calm}
    ensures Listed(NeedNames, needs)
    ensures var k := AnimationKey(NeedNames, needs).value;
            var cl, ins, ca := needs[Clarity], needs[Insight], needs[Calm];
            && (k == "low_clarity" <==> cl < LowNeed && cl <= ins && cl <= ca)
            && (k == "low_insight" <==> ins < LowNeed && ins < cl && ins <= ca)
            && (k == "low_calm" <==> ca < LowNeed && ca < cl && ca < ins)
            && (k == ContentKey <==> cl >= LowNeed && ins >= LowNeed && ca >= LowNeed)
            && (IntervalFor(k) == AgitatedInterval <==> ca < LowNeed && ca < cl && ca < ins)
  {
    assert Listed(NeedNames, needs);
    var i := MinIndex(NeedNames, needs);
    assert NeedNames[0] == Clarity && NeedNames[1] == Insight && NeedNames[2] == Calm;
    assert LowPrefix + Clarity == "low_clarity";
    assert LowPrefix + Insight == "low_insight";
    assert LowPrefix + Calm == "low_calm";
  }

  /** The worked cases: a lone low need wins, ties go to the need listed first,
      and needs at 50 or more are content. */
  lemma SelectionExamples()
    ensures AnimationKey(NeedNames, map[Clarity := 80.0, Insight := 30.0, Calm := 90.0]) == Some("low_insight")
    ensures AnimationKey(NeedNames, map[Clarity := 20.0, Insight := 20.0, Calm := 90.0]) == Some("low_clarity")
    ensures AnimationKey(NeedNames, map[Clarity := 50.0, Insight := 70.0, Calm := 60.0]) == Some(ContentKey)
  {
    DefaultOrderSelection(map[Clarity := 80.0, Insight := 30.0, Calm := 90.0]);
    DefaultOrderSelection(map[Clarity := 20.0, Insight := 20.0, Calm := 90.0]);
    DefaultOrderSelection(map[Clarity := 50.0, Insight := 70.0, Calm := 60.0]);
  }

  /** The frame after `frame` in an animation of `count` frames. */
  function NextFrame(frame: int, count: nat): (r: int)
    requires count > 0
    ensures 0 <= r < count
    ensures 0 <= frame < count - 1 ==> r == frame + 1
    ensures frame == count - 1 ==> r == 0
  {
    (frame + 1) % count
  }

  /** The frame reached after `ticks` ticks. */
  function AfterTicks(frame: int, count: nat, ticks: nat): (r: int)
    requires count > 0
    decreases ticks
  {
    if ticks == 0 then frame else NextFrame(AfterTicks(frame, count, ticks - 1), count)
  }

  /** Taking the next frame of a wrapped position is wrapping the next position. */
  lemma NextOfWrapped(x: int, count: nat)
    requires count > 0 && x >= 0
    ensures (x % count + 1) % count == (x + 1) % count
  {
    var p, q := x % count, x / count;
    assert x == q * count + p;
    if p + 1 < count {
      ModOfDecomposition(x + 1, count, q, p + 1);
    } else {
      ModOfDecomposition(x + 1, count, q + 1, 0);
    }
  }

  /** The remainder of `q * d + r` with `0 <= r < d` is `r`. */
  lemma ModOfDecomposition(n: int, d: nat, q: int, r: int)
    requires d > 0 && 0 <= r < d && n == q * d + r
    ensures n % d == r
  {
    var q', r' := n / d, n % d;
    assert n == q' * d + r';
    var k := q' - q;
    assert k * d == q' * d - q * d;
    assert k * d == r - r';
    if k >= 1 {
      MulAtLeast(k, d);
    } else if k <= -1 {
      MulAtLeast(-k, d);
    }
  }

  /** A positive multiple of `d` is at least `d`. */
  lemma MulAtLeast(k: int, d: nat)
    requires k >= 1
    ensures k * d >= d
  {
  }

  /** Frames cycle: after `ticks` ticks the frame is the start plus the number
      of ticks, wrapped around the frame count. */
  lemma {:induction false} FramesCycle(frame: int, count: nat, ticks: nat)
    requires count > 0 && 0 <= frame < count
    ensures AfterTicks(frame, count, ticks) == (frame + ticks) % count
    decreases ticks
  {
    if ticks > 0 {
      FramesCycle(frame, count, ticks - 1);
      NextOfWrapped(frame + ticks - 1, count);
    }
  }

  /** The evolution stage `level // 10`. */
  function EvolutionStage(level: int): (s: int)
    ensures 10 * s <= level < 10 * s + 10
  {
    level / 10
  }

  /** Higher levels never give a lower stage. */
  lemma StageMonotone(l1: int, l2: int)
    requires l1 <= l2
    ensures EvolutionStage(l1) <= EvolutionStage(l2)
  {
  }

  /** The companion's title for an evolution stage: one title for each of
      the stages 1 to 3, none otherwise. */
  function Title(stage: int): (t: string)
    ensures stage == 1 <==> t == "Jerry the Listener"
    ensures stage == 2 <==> t == "Calm Companion"
    ensures stage == 3 <==> t == "Beacon of Insight"
    ensures stage < 1 || stage > 3 <==> t == ""
  {
    if stage == 1 then "Jerry the Listener"
    else if stage == 2 then "Calm Companion"
    else if stage == 3 then "Beacon of Insight"
    else ""
  }

  /** Titles by level: 10 to 19, 20 to 29 and 30 to 39 have a title; every
      other level has none. */
  lemma TitleByLevel(level: int)
    ensures 10 <= level < 20 <==> Title(EvolutionStage(level)) == "Jerry the Listener"
    ensures 20 <= level < 30 <==> Title(EvolutionStage(level)) == "Calm Companion"
    ensures 30 <= level < 40 <==> Title(EvolutionStage(level)) == "Beacon of Insight"
    ensures level < 10 || level >= 40 <==> Title(EvolutionStage(level)) == ""
  {
  }

  /** The animator's state: its evolution stage, the peak alpha of the pulsing
      aura when one is running, the current frame, the interval the
      need-driven tick was last scheduled at (`None` before the first start),
      whether that tick is running, and the interval of the thinking tick
      when it runs. */
  datatype Animator = Animator(stage: int, aura: Option<real>, frame: int, interval: Option<real>,
                               ticking: bool, thinking: Option<real>)

  /** The animator as created: stage 0, no aura, frame 0, nothing scheduled. */
  const NewAnimator: Animator := Animator(0, None, 0, None, false, None)

  /** The animator invariant: an aura only from stage 2 on, with a peak of 0.4
      from stage 3 and 0.2 before, the frame inside every animation, and the
      thinking tick only at its own interval. */
  ghost predicate Valid(a: Animator)
  {
    && (a.aura.Some? ==> a.stage >= 2 && a.aura.value == (if a.stage >= 3 then 0.4 else 0.2))
    && 0 <= a.frame < 2
    && (a.thinking.Some? ==> a.thinking.value == ThinkingInterval)
  }

  /** `evolve(stage)`: record the stage, cancel any aura, and start one from
      stage 2 on. */
  function Evolve(a: Animator, stage: int): (a': Animator)
    ensures a'.stage == stage && a'.frame == a.frame && a'.interval == a.interval
    ensures a'.ticking == a.ticking && a'.thinking == a.thinking
    ensures a'.aura.Some? <==> stage >= 2
    ensures a'.aura.Some? ==> a'.aura.value == (if stage >= 3 then 0.4 else 0.2)
  {
    a.(stage := stage, aura := if stage >= 2 then Some(if stage >= 3 then 0.4 else 0.2) else None)
  }

  /** `stop`: cancel both ticks and the aura. */
  function Stop(a: Animator): (a': Animator)
    ensures !a'.ticking && a'.thinking.None? && a'.aura.None?
    ensures a'.stage == a.stage && a'.frame == a.frame && a'.interval == a.interval
  {
    a.(aura := None, ticking := false, thinking := None)
  }

  /** `start`: stop, then run the need-driven tick at the base interval. */
  function Start(a: Animator): (a': Animator)
    ensures a'.ticking && a'.interval == Some(BaseInterval)
    ensures a'.thinking.None? && a'.aura.None?
    ensures a'.stage == a.stage && a'.frame == a.frame
  {
    Stop(a).(interval := Some(BaseInterval), ticking := true)
  }

  /** `show_thinking_sprite`: stop, restart the frames from 0 and run the
      thinking tick every half second. */
  function ShowThinking(a: Animator): (a': Animator)
    ensures !a'.ticking && a'.thinking == Some(ThinkingInterval)
    ensures a'.aura.None? && a'.frame == 0 && a'.stage == a.stage
  {
    Stop(a).(frame := 0, thinking := Some(ThinkingInterval))
  }

  /** `animate_thinking`: advance through the thinking frames. */
  function AnimateThinking(a: Animator): (a': Animator)
    ensures 0 <= a'.frame < SpriteFrames[ThinkingKey]
    ensures a'.frame == (a.frame + 1) % SpriteFrames[ThinkingKey]
    ensures a' == a.(frame := a'.frame)
  {
    a.(frame := NextFrame(a.frame, SpriteFrames[ThinkingKey]))
  }

  /** One need-driven tick (`animate`) on needs already brought up to date:
      pick the key, reschedule when its interval differs from the current
      one, and advance the frame of its animation when the sprite table has
      one. `None` in the key means the tick failed on empty needs and changed
      nothing. */
  function Animate(a: Animator, keys: seq<string>, needs: map<string, real>): (r: (Animator, Option<string>))
    requires Listed(keys, needs)
    ensures r.1 == AnimationKey(keys, needs)
    ensures r.1.None? ==> r.0 == a
    ensures r.1.Some? ==> r.0.interval == Some(IntervalFor(r.1.value))
    ensures r.1.Some? ==> (r.0.ticking <==> a.ticking || a.interval != r.0.interval)
    ensures r.1.Some? && r.1.value in SpriteFrames ==> r.0.frame == NextFrame(a.frame, SpriteFrames[r.1.value])
    ensures r.1.Some? && r.1.value !in SpriteFrames ==> r.0.frame == a.frame
    ensures r.0.stage == a.stage && r.0.aura == a.aura && r.0.thinking == a.thinking
  {
    match AnimationKey(keys, needs)
    case None => (a, None)
    case Some(key) =>
      var interval := Some(IntervalFor(key));
      var frame := if key in SpriteFrames then NextFrame(a.frame, SpriteFrames[key]) else a.frame;
      (a.(interval := interval, ticking := a.ticking || interval != a.interval, frame := frame), Some(key))
  }

  /** Every animator operation keeps the invariant, starting from a new one. */
  lemma AnimatorKeepsValid(a: Animator, stage: int, level: int, lastKnown: int, keys: seq<string>,
                           needs: map<string, real>)
    requires Valid(a) && Listed(keys, needs)
    ensures Valid(NewAnimator)
    ensures Valid(Evolve(a, stage)) && Valid(Stop(a)) && Valid(Start(a)) && Valid(ShowThinking(a))
    ensures Valid(AnimateThinking(a)) && Valid(Animate(a, keys, needs).0)
    ensures Valid(CheckForEvolution(a, level, lastKnown).0)
  {
  }

  /** The screen's evolution check (`update_ui` and `check_for_evolution`):
      when the level rose above the last one seen, evolve the animator to the
      new stage and show its title; otherwise nothing changes. Returns the
      animator, the title shown (if updated) and the new last-seen level. */
  function CheckForEvolution(a: Animator, level: int, lastKnown: int): (r: (Animator, Option<string>, int))
    ensures level > lastKnown ==> r.0 == Evolve(a, EvolutionStage(level)) && r.1 == Some(Title(EvolutionStage(level)))
    ensures level > lastKnown ==> r.2 == level
    ensures level <= lastKnown ==> r == (a, None, lastKnown)
  {
    if level > lastKnown then
      var stage := EvolutionStage(level);
      (Evolve(a, stage), Some(Title(stage)), level)
    else (a, None, lastKnown)
  }

  /** Once the screen has seen a level, the aura is on exactly from level 20
      on, and brighter from level 30 on. */
  lemma AuraByLevel(a: Animator, level: int, lastKnown: int)
    requires level > lastKnown
    ensures var a' := CheckForEvolution(a, level, lastKnown).0;
            && (a'.aura.Some? <==> level >= 20)
            && (level >= 30 ==> a'.aura == Some(0.4))
            && (20 <= level < 30 ==> a'.aura == Some(0.2))
  {
  }

  /** The base body and outline colours: the hatchling's, or the brighter ones
      from stage 1 on. */
  datatype BodyBase = Hatchling | Evolved

  /** The colour of the sprite's feature pixels. */
  datatype Feature = PaleBlue | Gold | Muted

  /** A symbolic description of `draw_sprite`'s colour choice. `golden` scales
      the body towards gold; `dimmed` darkens it for low insight; `aura` draws
      the aura ellipse behind the sprite. */
  datatype Tint = Tint(base: BodyBase, golden: bool, dimmed: bool, feature: Feature, aura: bool)

  /** The tint of a frame of animation `key`. */
  function TintFor(a: Animator, key: string): (t: Tint)
    ensures t.base == Evolved <==> a.stage >= 1
    ensures t.golden <==> a.stage >= 3
    ensures t.dimmed <==> key == "low_insight"
    ensures t.feature == Muted <==> key == "low_insight"
    ensures t.feature == Gold <==> a.stage >= 3 && key != "low_insight"
    ensures t.aura <==> a.stage >= 2 && a.aura.Some?
  {
    var feature := if key == "low_insight" then Muted else if a.stage >= 3 then Gold else PaleBlue;
    Tint(if a.stage >= 1 then Evolved else Hatchling, a.stage >= 3, key == "low_insight", feature,
         a.stage >= 2 && a.aura.Some?)
  }

  /** On a valid animator the aura is drawn exactly when one is running. */
  lemma TintAuraFollowsAnimator(a: Animator, key: string)
    requires Valid(a)
    ensures TintFor(a, key).aura <==> a.aura.Some?
  {
  }
}

=== FILE: sequences.dfy ===
/** Small facts about sequences shared by the chat and flow modules. */
module Sequences {

  /** Position of the first occurrence of `x` in `s`. */
  function IndexOf<T(==)>(s: seq<T>, x: T): (i: nat)
    requires x in s
    ensures i < |s| && s[i] == x && x !in s[..i]
  {
    if s[0] == x then 0
    else
      var j := 1 + IndexOf(s[1..], x);
      assert s[..j] == [s[0]] + s[1..][..j - 1];
      j
  }

  /** Python's `list.remove(x)`: `s` without the first occurrence of `x`. */
  function RemoveFirst<T(==)>(s: seq<T>, x: T): (r: seq<T>)
    requires x in s
    ensures exists k :: 0 <= k < |s| && s[k] == x && x !in s[..k] && r == s[..k] + s[k + 1..]
    ensures multiset(r) == multiset(s) - multiset{x}
  {
    var k := IndexOf(s, x);
    assert s == s[..k] + [s[k]] + s[k + 1..];
    s[..k] + s[k + 1..]
  }

  /** Removing an item just appended to a list that did not hold it gives
      back the list. */
  lemma RemoveFirstOfAppended<T>(s: seq<T>, x: T)
    requires x !in s
    ensures RemoveFirst(s + [x], x) == s
  {
    var t := s + [x];
    var k :| 0 <= k < |t| && t[k] == x && x !in t[..k] && RemoveFirst(t, x) == t[..k] + t[k + 1..];
    assert k == |s|;
    assert t[..k] == s;
  }
}

=== FILE: wrappers.dfy ===
/** The optional-value type shared by the companion modules. */
module Wrappers {

  /** A value that may be absent: a missing JSON key, an empty dictionary, an
      animation that has no sprite. */
  datatype Option<+T> = None | Some(value: T) {

    /** The carried value, or `default` when there is none. */
    function GetOr(default: T): (r: T)
      ensures Some? ==> r == value
      ensures None? ==> r == default
    {
      match this
      case Some(v) => v
      case None => default
    }
  }
}
